=== FILE: README.md ===
# 8zip extraction core in Dafny

This project models two parts of the 8zip archive tool.

**`decompress_tar_gz`.** It first creates the output directory and opens the archive (a named file or standard input). It then walks the tar entries in archive order. For each entry it:

- splits the header path into components;
- drops the first `strip_components` of them, and skips the entry if none would remain;
- keeps the entry only if the optional `--path` filter is a component-wise prefix of what remains;
- joins the result onto the output directory;
- creates the destination's parent directories;
- unpacks the entry.

The first failure ends the call.

**The dispatch in `main`.** `compress` and `extract` choose the tar-gz, tar-xz or zip backend from a file extension. The format-specific subcommands go straight to their own backend.

## How it is organised

- **`Paths`**: the part of Rust's `std::path` on Unix that the core relies on, with a path modelled as its sequence of components.
  - `Components` models `Path::components`.
  - `Render` models collecting components into a `PathBuf`.
  - `IterAfter` models `starts_with`.
  - `Join`, `Parent`, `FileName` and `Extension` model the methods of the same names.
- **`PathLemmas`**: what those operations do. The central facts:
  - collecting a component sequence into a `PathBuf` and reading its components back is the identity on every sequence `components` can produce;
  - `starts_with` is exactly the component-wise prefix test;
  - a trailing `/` changes nothing;
  - the components of `a/b/c` and `./a/b` are as expected;
  - extensions are characterised.
- **`Filesystem`**: the filesystem as the core touches it.
  - The value `Disk` holds the existing directories, the existing files, the paths at which an operation fails for a reason other than a path of the other kind (`faulty`), and the ordered log of unpacked destinations.
  - `CreateDirAllOn` and `UnpackOn` are `std::fs::create_dir_all` and the tar library's `Entry::unpack` on such a value.
  - The class `FileSystem` holds the same state as mutable fields. Its methods `CreateDirAll` and `Unpack` change that state in place.
- **`TarGz`**: the per-entry decision and the loop.
  - The per-entry decision is `StrippedPath` and `Destination`.
  - The reference semantics is `Step`, `RunEntries` and `Decompress`, with `Plan` the ordered list of destinations the archive asks for.
  - The method `DecompressTarGz` runs the `for entry in archive.entries()` loop over a `FileSystem` object. Its body is the method `ExtractEntry`.
  - Both methods are proved equal to the reference semantics.
- **`TarGzProperties`**: what the extraction guarantees, proved about the reference semantics. This covers strip, filter, destination, order and failure behaviour, plus the worked example `pkg/bin/tool`, `pkg/README`, `pkg/`.
- **`Cli`**: the subcommands, `BackendFor` (the match on `"gz"`, `"xz"`, `"zip"`), `Dispatch` (the `match args.command`), and routing lemmas.

### What the code does not check

Nothing in `decompress_tar_gz` keeps a destination inside `output`. The join `output.join(stripped_path)` (src/decompress_tar_gz.rs:77) takes whatever components the entry header holds, and the model does the same. The entry is then unpacked with `Entry::unpack` (line 87), which validates nothing, rather than `unpack_in`.

- `DestinationUnderOutput` states that a stripped path made of plain names is written lexically under `output`, and no more.
- `AbsoluteEntryLeavesOutput` shows an absolute entry `/etc/passwd` written at `/etc/passwd`.
- `ParentEntryClimbs` shows `../evil` written at `output/../evil`.
- A symbolic link leaves `output` even through names only. Take a link entry `evil` pointing to `/etc`, followed by a file entry `evil/passwd`. Then `create_dir_all("output/evil")` succeeds because it follows the link, and the file is written in `/etc`. The model does not follow links, because their targets are not modelled. It records `evil` as a file and fails this archive where the program writes through the link (see `UnpackOn` under "## Left out").

A file and a directory at the same path conflict, and the code does not check for that either. A regular file entry `a` followed by `a/b` makes `create_dir_all` of `output/a`, the parent of `a/b`, fail at line 81 (`FileThenEntryBelowFails`). A directory entry `a/` followed by a file `a` makes the unpack fail (`DirectoryThenFileFails`). Both happen on any disk, with no faulty path (`ExampleKindConflicts`).

The empty-path test at src/decompress_tar_gz.rs:65 never fires. A path that passes the length test at line 56 always rebuilds to a non-empty path (`EmptyPathSkipNeverFires`).

## Model

| member | source | states |
|---|---|---|
| Paths.Components | src/decompress_tar_gz.rs:55 | no contract of its own: `Path::components` on Unix, characterised by `SplitFacts`, `ComponentsWellFormed`, `ComponentsOfNames`, `ComponentsOfDotNames` and `TrailingSeparatorIgnored` |
| Paths.Render | src/decompress_tar_gz.rs:62 | no contract of its own: `collect::<PathBuf>()`, characterised by `ComponentsOfRender` and `RenderEmptyIff` |
| Paths.IterAfter | src/decompress_tar_gz.rs:72 | no contract of its own: the walk behind `starts_with`, characterised by `IterAfterIsPrefix` |
| Paths.Join | src/decompress_tar_gz.rs:77 | no contract of its own: `Path::join`, characterised by `JoinNamesStaysUnder`, `AbsoluteEntryLeavesOutput` and `ParentEntryClimbs` |
| Paths.Parent | src/decompress_tar_gz.rs:80 | no contract of its own: `Path::parent`, used through `ParentPrefixesAbove`, `PlaceSucceedsIff` and `PlaceAddsAncestors` |
| Paths.Extension | src/main.rs:100 | no contract of its own: `Path::extension` as `compress` and `extract` read it, characterised by `SplitExtensionCharacterised`, `ExtensionOfNames`, `NoDotNoExtension`, `LeadingDotNoExtension` and `LastNameIsFileName` |
| TarGz.StrippedPath | src/decompress_tar_gz.rs:55-75 | no contract of its own: the per-entry skip and strip decision, characterised by `StrippedPathIsSliceArithmetic` |
| TarGz.Destination | src/decompress_tar_gz.rs:77 | no contract of its own: where a kept entry is written, characterised by `DestinationUnderOutput`, `PlanMembers` and the example lemmas |
| TarGz.Place | src/decompress_tar_gz.rs:79-88 | no contract of its own: parent chain, then unpack, characterised by `PlaceSucceedsIff`, `PlaceAddsAncestors` and `PlaceAddsOnlyDestination` |
| TarGz.Step | src/decompress_tar_gz.rs:51-88 | no contract of its own: one iteration, characterised by `StepEffect`, `SkippedStepChangesNothing`, `KeptStepSucceedsIff` and `KeptStepAddsOnlyDestination` |
| TarGz.RunEntries | src/decompress_tar_gz.rs:47-89 | no contract of its own: the loop, characterised by `RunSplit`, `RunWritesPlanPrefix`, `RunPassWritesPlan` and `RunNoFaults` |
| TarGz.Decompress | src/decompress_tar_gz.rs:13-92 | no contract of its own: the whole call, characterised by `DecompressWrites` and `MissingArchiveFailsFirst`, and performed by `DecompressTarGz` |
| Paths.LastDot | src/main.rs:100 | the position of the last `.` in a file name, with no `.` after it; none when the name has no `.` |
| PathLemmas.SplitFacts | src/decompress_tar_gz.rs:55 | splitting a path string at `/` gives segments free of `/` that glue back to the string |
| PathLemmas.ComponentsWellFormed | src/decompress_tar_gz.rs:55 | `components` yields a root or a `.` only in first position, and every other item is `..` or a non-empty name without `/` |
| PathLemmas.TrailingSeparatorIgnored | src/decompress_tar_gz.rs:55 | a trailing `/`, as on the directory entry `pkg/`, does not change a path's components |
| PathLemmas.ComponentsOfNames | src/decompress_tar_gz.rs:55 | `a/b/c` has exactly the components `a`, `b`, `c`, in order |
| PathLemmas.ComponentsOfDotNames | src/decompress_tar_gz.rs:55 | `./a/b` keeps its leading `.` as a component, followed by `a`, `b` |
| PathLemmas.ComponentsOfRender | src/decompress_tar_gz.rs:62-72 | collecting well-formed components into a `PathBuf` and reading its components back returns the same sequence, so the later `is_empty` and `starts_with` see exactly the kept components |
| PathLemmas.RenderEmptyIff | src/decompress_tar_gz.rs:62-67 | the collected `PathBuf` is empty if and only if no components were collected |
| PathLemmas.IterAfterIsPrefix | src/decompress_tar_gz.rs:72 | `starts_with`'s lock-step walk holds if and only if the filter's components are a prefix of the path's |
| PathLemmas.JoinNamesStaysUnder | src/decompress_tar_gz.rs:77 | joining a path made only of names appends it to the base, so the result starts with the base |
| PathLemmas.SplitExtensionCharacterised | src/main.rs:100 | a name `stem.ext` with a non-empty stem and a dot-free `ext` has extension `ext`; conversely every extension is the dot-free text after the last dot, which does not lead the name |
| Filesystem.ReachFrom | src/decompress_tar_gz.rs:20-21 | how far `create_dir_all` gets: no directory before that point is blocked, and the next one is |
| Filesystem.CreateDirAllOn | src/decompress_tar_gz.rs:80-83 | `create_dir_all` succeeds if and only if no prefix of the path is blocked, where a prefix is blocked when it is not a directory and is faulty or a file. Every prefix before the first blocked one becomes a directory (so on success all of them do). Nothing at or past a blocked prefix is added, and no directory is created where a file or a faulty path was. The directories afterwards lie between the old ones and the old ones plus the path's prefixes, and nothing else changes |
| Filesystem.UnpackOn | src/decompress_tar_gz.rs:86-88 | unpacking succeeds if and only if the destination is not faulty, its parent directory exists, and nothing of the other kind is there: a directory entry does not replace a file, and a file or link does not replace a directory. On success the destination exists, as a directory for a directory entry and as a file otherwise; it is the only path added, and it is appended to the log. A directory entry adds no file and any other entry no directory. A failure changes nothing |
| Filesystem.FileSystem.CreateDirAll | src/decompress_tar_gz.rs:80-83 | the in-place operation leaves exactly the state and result of `CreateDirAllOn` |
| Filesystem.FileSystem.Unpack | src/decompress_tar_gz.rs:86-88 | the in-place operation leaves exactly the state and result of `UnpackOn` |
| TarGz.ExtractEntry | src/decompress_tar_gz.rs:51-88 | one loop iteration on the filesystem object leaves the state and outcome of `Step` |
| TarGz.DecompressTarGz | src/decompress_tar_gz.rs:13-92 | the whole call on the filesystem object leaves the state and outcome of `Decompress`: output directory, then input checks, then the entry loop in order, stopping at the first failure |
| TarGzProperties.StrippedPathIsSliceArithmetic | src/decompress_tar_gz.rs:55-75 | the per-entry decision equals plain sequence arithmetic: skip if at most `n` components, else the suffix after `n` if it passes the component-prefix filter |
| TarGzProperties.StripCharacterised | src/decompress_tar_gz.rs:56-62 | an entry with at most `n` components is skipped; without a filter it is kept if and only if it has more than `n`; a kept path is the component sequence with exactly the first `n` removed, order preserved |
| TarGzProperties.KeptWithoutFilter | src/decompress_tar_gz.rs:56-62 | without a filter, an entry with more than `n` components is kept as its components after the first `n` |
| TarGzProperties.KeptUnderFilter | src/decompress_tar_gz.rs:56-75 | with a filter, the entry is kept, as its components after the first `n`, exactly when it has more than `n` components and the filter's components prefix that suffix |
| TarGzProperties.EmptyPathSkipNeverFires | src/decompress_tar_gz.rs:56-67 | a path that passes the length test rebuilds to a non-empty `PathBuf`, so the empty-path skip never fires |
| TarGzProperties.FilterIsComponentPrefix | src/decompress_tar_gz.rs:70-75 | with a filter, an entry is kept if and only if it has more than `n` components and the filter's components are a prefix of, or equal to, the stripped components |
| TarGzProperties.FilterComparesWholeComponents | src/decompress_tar_gz.rs:70-75 | `ab/x` is not kept under filter `a` |
| TarGzProperties.FilterKeepsItselfAndBelow | src/decompress_tar_gz.rs:70-75 | under filter `a`, both `a` itself and `a/x` are kept |
| TarGzProperties.DestinationUnderOutput | src/decompress_tar_gz.rs:77 | a kept entry whose stripped path holds only names is written at `output` followed by those names, lexically under `output` |
| TarGzProperties.AbsoluteEntryLeavesOutput | src/decompress_tar_gz.rs:77 | with no stripping, the entry `/etc/passwd` is written at `/etc/passwd`, whatever the output directory |
| TarGzProperties.ParentEntryClimbs | src/decompress_tar_gz.rs:77 | the entry `../evil` is written at `output/../evil`: the `..` is not removed |
| TarGzProperties.DotPrefixCountsAsComponent | src/decompress_tar_gz.rs:55-62 | a leading `./` is a component: stripping one from `./pkg/bin/tool` leaves `pkg/bin/tool` |
| TarGzProperties.PlanAppend | src/decompress_tar_gz.rs:47-50 | the destinations of two archive parts in sequence are those of the first followed by those of the second |
| TarGzProperties.PlanMembers | src/decompress_tar_gz.rs:77 | a path is planned if and only if it is the destination of some entry of the archive |
| TarGzProperties.StepEffect | src/decompress_tar_gz.rs:51-88 | one iteration never removes a directory or file and never changes the faulty set; a failing iteration writes nothing, a passing one writes exactly the entry's destination, if any |
| TarGzProperties.KeptStepSucceedsIff | src/decompress_tar_gz.rs:79-88 | a kept entry succeeds if and only if its destination is not faulty, no prefix of its parent is blocked (by a fault or by a file, including one written earlier in the run), and nothing of the other kind is at the destination; it never fails for want of its parent. A link unpacked earlier counts as a file (see "## Left out") |
| TarGzProperties.PlaceSucceedsIff | src/decompress_tar_gz.rs:79-88 | creating the parent chain and unpacking pass under exactly the same three conditions |
| TarGzProperties.PlaceAddsAncestors | src/decompress_tar_gz.rs:79-88 | the only directories added are proper ancestors of the destination and, for a directory entry, the destination itself; a directory entry adds no file, and any other entry at most its destination |
| TarGzProperties.PlaceWriteHasParent | src/decompress_tar_gz.rs:79-88 | the destination that creating the parent chain and unpacking write exists afterwards, with its parent directory in place |
| TarGzProperties.StepKeepsDisjoint | src/decompress_tar_gz.rs:51-88 | an iteration never makes a path both a directory and a file |
| TarGzProperties.StepWritesHaveParents | src/decompress_tar_gz.rs:79-88 | after an iteration, the destination it wrote exists and has its parent directory in place |
| TarGzProperties.SkippedStepChangesNothing | src/decompress_tar_gz.rs:56-75 | an entry that is skipped (too few components, or not under the filter) leaves the filesystem exactly as it was and passes; only an unreadable item fails |
| TarGzProperties.KeptStepAddsOnlyDestination | src/decompress_tar_gz.rs:77-88 | a kept entry adds no directory but its destination and the destination's ancestors, and no file but its destination |
| TarGzProperties.PlaceAddsOnlyDestination | src/decompress_tar_gz.rs:79-88 | creating the parent chain and unpacking add no directory outside the destination's prefix chain and no file but the destination |
| TarGzProperties.RunSplit | src/decompress_tar_gz.rs:47-89 | entries are handled strictly in order: running over `a + b` is running over `a` and, only if that passed, over `b` from the resulting state |
| TarGzProperties.RunOnlyAdds | src/decompress_tar_gz.rs:47-89 | the loop never removes directories or files, keeps the faulty set, and only extends the write log |
| TarGzProperties.RunPassWritesPlan | src/decompress_tar_gz.rs:47-89 | a loop that passes writes exactly the planned destinations, in archive order |
| TarGzProperties.RunWritesPlanPrefix | src/decompress_tar_gz.rs:47-89 | the loop fails exactly when it stops before the last entry; whatever happens, it writes the plan of the entries before the failing one, so earlier writes remain and the failing entry and later ones add nothing |
| TarGzProperties.RunWritesWithinPlan | src/decompress_tar_gz.rs:47-89 | whatever the outcome, the loop's writes are a leading part of the plan |
| TarGzProperties.RunWritesHaveParents | src/decompress_tar_gz.rs:79-88 | after the loop, every destination it wrote exists and has its parent directory in place |
| TarGzProperties.RunKeepsDisjoint | src/decompress_tar_gz.rs:47-89 | the loop never makes a path both a directory and a file |
| TarGzProperties.PlaceKeepsClashFree | src/decompress_tar_gz.rs:79-88 | on a fault-free disk, a destination that meets no path of the other kind is created with its parent chain, and the destinations still to come meet none either |
| TarGzProperties.StepKeepsClashFree | src/decompress_tar_gz.rs:51-88 | the same for one readable entry of the loop |
| TarGzProperties.RunNoFaults | src/decompress_tar_gz.rs:47-89 | the loop succeeds when no path is faulty, no entry is unreadable, and no entry meets a path of the other kind: no file, existing or unpacked by the run, is an ancestor of a destination or where a directory entry goes, and no file or link goes where a directory is |
| TarGzProperties.FileThenEntryBelowFails | src/decompress_tar_gz.rs:79-83 | on every disk, a regular file entry followed by an entry below it fails: the first either fails, or its file stops the second's `create_dir_all` |
| TarGzProperties.DirectoryThenFileFails | src/decompress_tar_gz.rs:85-88 | on every disk, a directory entry followed by a file or link entry at the same destination fails |
| TarGzProperties.ExampleKindConflicts | src/decompress_tar_gz.rs:47-89 | the archives `a`, `a/b` (two files) and `a/`, `a` (a directory, then a file) fail on every disk |
| TarGzProperties.NestedDestinations | src/decompress_tar_gz.rs:55-77 | with nothing stripped and no filter, `a` and `a/` both go to `output/a`, and `a/b` to `output/a/b` |
| TarGzProperties.AbsentStripIsZero | src/decompress_tar_gz.rs:44 | an absent `strip_components` behaves exactly like 0 |
| TarGzProperties.MissingArchiveFailsFirst | src/decompress_tar_gz.rs:20-31 | the call reports a missing archive exactly when the output directory was created and the named archive does not exist; the output directory is then in place and no entry was written |
| TarGzProperties.RunFailureIsAnEntryError | src/decompress_tar_gz.rs:51-88 | every failure of the loop is an unreadable entry, a parent-directory failure or an unpack failure |
| TarGzProperties.DecompressWrites | src/decompress_tar_gz.rs:13-92 | on success the output directory exists and exactly the plan was written; on failure a leading part of the plan was written and nothing else |
| TarGzProperties.ExampleToolDestination | src/decompress_tar_gz.rs:55-77 | `pkg/bin/tool` with one component stripped goes to `output/bin/tool`, with no filter and with filter `bin` |
| TarGzProperties.ExampleReadmeDestination | src/decompress_tar_gz.rs:55-77 | `pkg/README` goes to `output/README` with no filter and is skipped under filter `bin` |
| TarGzProperties.ExampleDirectorySkipped | src/decompress_tar_gz.rs:56-59 | the directory entry `pkg/` has one component, so stripping one skips it |
| TarGzProperties.ExamplePlan | src/decompress_tar_gz.rs:47-89 | the archive `pkg/bin/tool`, `pkg/README`, `pkg/` with strip 1 plans `output/bin/tool` then `output/README` |
| TarGzProperties.ExampleFilteredPlan | src/decompress_tar_gz.rs:47-89 | the same archive with strip 1 and filter `bin` plans only `output/bin/tool` |
| TarGzProperties.ExampleRun | src/decompress_tar_gz.rs:13-92 | the example on an empty, fault-free filesystem succeeds and writes `output/bin/tool` then `output/README` |
| TarGzProperties.ExampleKept | src/decompress_tar_gz.rs:55-77 | of the example with one component stripped, the two files are kept as files and nothing as a directory |
| TarGzProperties.ExampleClashFree | src/decompress_tar_gz.rs:79-88 | after the output directory is created on an empty disk, the example's two files meet nothing of the other kind |
| Cli.BackendFor | src/main.rs:100-107 | an extension selects a backend exactly when it is that backend's `gz`, `xz` or `zip`; otherwise none |
| Cli.Dispatch | src/main.rs:95-183 | `compress` succeeds if and only if the output's extension selects a backend, and otherwise fails naming that extension; `extract` succeeds if and only if a target is given and its extension selects a backend, and otherwise fails with "Unable to detect extension"; every other subcommand succeeds |
| Cli.ExtractRoutesByExtension | src/main.rs:162-180 | `extract` with a target goes to backend `b`, with all arguments passed on unchanged, if and only if the target's extension is `b`'s |
| Cli.ExtractFailsOtherwise | src/main.rs:162-181 | `extract` fails if and only if the target is absent or its extension is none of `gz`, `xz`, `zip` |
| Cli.CompressRoutesByExtension | src/main.rs:100-107 | `compress` goes to backend `b` if and only if the output's extension is `b`'s, and fails if and only if it is none of the three |
| Cli.ExplicitSubcommandsIgnoreExtension | src/main.rs:109-156 | each format-specific subcommand reaches its own backend whatever the paths, passing `strip_components` and `path` on unchanged |
| Cli.ExtractAgreesWithExplicit | src/main.rs:124-180 | where `extract` recognises the extension, it dispatches exactly as the matching format-specific subcommand |
| Cli.ExtensionOfNames | src/main.rs:100 | a path whose last component is `stem.ext`, with a non-empty stem and a dot-free `ext`, has extension `ext` |
| Cli.NoDotNoExtension | src/main.rs:162 | a path whose last component has no dot has no extension |
| Cli.LeadingDotNoExtension | src/main.rs:162 | a name whose only dot leads it, like `.gz`, has no extension |
| Cli.LastNameIsFileName | src/main.rs:162 | the file name of `a/b/c` is `c`, and the path's extension is that name's |
| Cli.TarGzNameSelectsTarGz | src/main.rs:162-168 | `dist/app.tar.gz` has extension `gz` and is extracted by the tar-gz backend |
| Cli.UpperCaseSelectsNothing | src/main.rs:162-181 | `GZ` selects no backend: extensions are compared as written |
| Cli.UpperCaseExtensionFails | src/main.rs:162-181 | `extract app.GZ` fails with "Unable to detect extension" |
| Cli.DotFileAndPlainNameFail | src/main.rs:162-181 | `extract .gz` and `extract archive` both fail with "Unable to detect extension" |

## Left out

- Gzip decompression and tar header parsing (`GzDecoder`, `tar::Archive`) are not modelled. The archive is the sequence of items the tar reader yields. An error from `archive.entries()`, from an entry, or from `entry.path()` is the single item `Unreadable`.
- `File::open` and the existence check work on paths. Any failure of `File::open` on an existing archive is modelled as membership of the faulty set.
- `platform::cmd_utils::resolve_path` and `InputTarget::detect` are not part of this model. `Decompress` takes as `InputTarget.Named` the path that `resolve_path` returns at src/decompress_tar_gz.rs:26. A failure of that `resolve_path` call, and the panic of its `unwrap()` on a non-UTF-8 path, are not modelled. `Dispatch` hands the target on as given.
- UnpackOn: three outcomes of `Entry::unpack` are not modelled. A regular file is created before its data is copied, so a read error during the copy (a truncated or corrupt gzip stream) fails with a partly written file left on disk; the model leaves nothing on a failure. A pax global header entry (type `g`, as `git archive` writes it) unpacks as success and writes nothing; the model has no such kind. Hard links are not an `EntryKind`.
- UnpackOn: an unpacked symbolic link is recorded as a file, because link targets are not modelled. Where the target is a directory, the program follows the link: `create_dir_all` through it succeeds (std's `is_dir` follows links), and a later directory entry at the link's path succeeds (tar's `unpack_dir` checks `fs::metadata`, which follows links). The model fails both.
- KeptStepSucceedsIff: the "only if" half holds for the model only. An entry whose parent chain passes through, or whose directory destination is, a link to a directory unpacked earlier in the run fails in the model but passes in the program. The "if" half, and `RunNoFaults`, which needs no such link in the way, hold for the program as well.
- DestinationUnderOutput: containment is lexical only. Link targets are not modelled, so a path through a symbolic link unpacked earlier is not followed.
- Dispatch: `compress` reads the extension of `output` after `resolve_path` has rewritten it (src/main.rs:29), and that rewriting is not modelled; the `extract` target is not resolved and is read as given.
- Standard input is only the `Stdin` target. Reading from it is the item sequence.
- `Entry::unpack` is reduced to its effect on paths.
  - A file, directory or symlink entry adds its destination to the files or directories and to the write log.
  - Contents, permissions, link targets and overwriting are not modelled.
  - A file and a directory at the same path conflict as described above. Any other reason for failure is one of the faults in `faulty`.
- The faulty set is fixed for the call. Faults that appear or disappear during a run are not modelled.
- `Components` models Unix paths only. Windows prefixes and the `\` separator are not modelled.
- Paths are strings of characters. `to_str()` returning `None` for non-UTF-8 names is not modelled (`Extension` always yields text).
- `Join` is stated on component sequences, that is, `output.join(stripped)` as its components read back. The string form is not modelled, and `..` is never resolved against the filesystem.
- Containment under the output directory is not claimed, because the code does not enforce it. `DestinationUnderOutput` is stated only for stripped paths made of names. Two lemmas show an absolute entry and a `..` entry leaving the directory.
- The backends `compress_tar_gz`, `compress_tar_xz`, `compress_zip`, `decompress_tar_xz` and `decompress_zip` are not part of this model. `Dispatch` ends in the `Call` it would make.
- clap argument parsing, help text and the text of error messages are not modelled. Errors are datatype values that carry the path or extension the message names.

=== FILE: Cli.dfy ===
/** The command line of `main`: the eight subcommands, the choice of backend
    from a file extension for `compress` and `extract`, and the direct
    routing of the format-specific subcommands. What a backend then does is
    not part of this module; a dispatch ends in the call it would make. */
module Cli {
  import opened Wrappers
  import opened Paths
  import opened PathLemmas

  /** The three archive formats, one backend each. */
  datatype Backend = TarGz | TarXz | Zip

  /** A parsed command line, with each path as clap hands it over (`cwd`
      and `output` after `resolve_path`); `strip_components` is a `usize`,
      so never negative. */
  datatype Command =
    | Compress(target: string, cwd: string, output: string)
    | CompressTarGz(target: string, cwd: string, output: string)
    | CompressTarXz(target: string, cwd: string, output: string)
    | CompressZip(target: string, cwd: string, output: string)
    | Extract(source: Option<string>, stripComponents: Option<nat>, output: string, path: Option<string>)
    | ExtractTarGz(source: Option<string>, stripComponents: Option<nat>, output: string, path: Option<string>)
    | ExtractTarXz(source: Option<string>, stripComponents: Option<nat>, output: string, path: Option<string>)
    | ExtractZip(source: Option<string>, stripComponents: Option<nat>, output: string, path: Option<string>)

  /** The backend call `main` ends in, with the arguments it passes on. The
      extract target is handed over as given; turning it into a file or
      standard input happens inside the call. */
  datatype Call =
    | CompressCall(backend: Backend, target: string, cwd: string, output: string)
    | DecompressCall(backend: Backend, source: Option<string>, output: string,
                     stripComponents: Option<nat>, path: Option<string>)

  /** The two "Unable to detect extension" errors: `compress` reports the
      output's extension, `extract` nothing. */
  datatype Error =
    | CompressExtensionUnknown(extension: Option<string>)
    | ExtractExtensionUnknown

  /** The extension that selects each backend. */
  function ExtensionOf(b: Backend): string {
    match b
    case TarGz => "gz"
    case TarXz => "xz"
    case Zip => "zip"
  }

  /** The inner `match` on an extension: exactly `gz`, `xz` and `zip` select
      a backend, compared as they are (so `GZ` selects none). */
  function BackendFor(ext: Option<string>): (b: Option<Backend>)
    ensures b.Some? ==> ext == Some(ExtensionOf(b.value))
    ensures b.None? ==> forall x: Backend :: ext != Some(ExtensionOf(x))
  {
    if ext == Some("gz") then Some(TarGz)
    else if ext == Some("xz") then Some(TarXz)
    else if ext == Some("zip") then Some(Zip)
    else None
  }

  /** `main` after argument parsing. */
  function Dispatch(c: Command): (r: Result<Call, Error>)
    ensures c.Compress? ==>
              (r.Ok? <==> BackendFor(Extension(c.output)).Some?)
              && (r.Err? ==> r.error == CompressExtensionUnknown(Extension(c.output)))
    ensures c.Extract? ==>
              (r.Ok? <==> c.source.Some? && BackendFor(Extension(c.source.value)).Some?)
              && (r.Err? ==> r.error == ExtractExtensionUnknown)
    ensures !c.Compress? && !c.Extract? ==> r.Ok?
  {
    match c
    case Compress(target, cwd, output) =>
      (match BackendFor(Extension(output))
       case Some(b) => Ok(CompressCall(b, target, cwd, output))
       case None => Err(CompressExtensionUnknown(Extension(output))))
    case CompressTarGz(target, cwd, output) => Ok(CompressCall(TarGz, target, cwd, output))
    case CompressTarXz(target, cwd, output) => Ok(CompressCall(TarXz, target, cwd, output))
    case CompressZip(target, cwd, output) => Ok(CompressCall(Zip, target, cwd, output))
    case ExtractTarGz(source, strip, output, path) => Ok(DecompressCall(TarGz, source, output, strip, path))
    case ExtractTarXz(source, strip, output, path) => Ok(DecompressCall(TarXz, source, output, strip, path))
    case ExtractZip(source, strip, output, path) => Ok(DecompressCall(Zip, source, output, strip, path))
    case Extract(source, strip, output, path) =>
      match source
      case None => Err(ExtractExtensionUnknown)
      case Some(t) =>
        match BackendFor(Extension(t))
        case Some(b) => Ok(DecompressCall(b, source, output, strip, path))
        case None => Err(ExtractExtensionUnknown)
  }

  /** The format-specific extract subcommand of a backend. */
  function ExtractWith(b: Backend, source: Option<string>, strip: Option<nat>, output: string, path: Option<string>): Command {
    match b
    case TarGz => ExtractTarGz(source, strip, output, path)
    case TarXz => ExtractTarXz(source, strip, output, path)
    case Zip => ExtractZip(source, strip, output, path)
  }

  /** The format-specific compress subcommand of a backend. */
  function CompressWith(b: Backend, target: string, cwd: string, output: string): Command {
    match b
    case TarGz => CompressTarGz(target, cwd, output)
    case TarXz => CompressTarXz(target, cwd, output)
    case Zip => CompressZip(target, cwd, output)
  }

  // ---------------------------------------------------------------------------
  // Properties of the dispatch

  /** `extract` with a target goes to backend `b`, with every argument passed
      on unchanged, exactly when the target's extension is `b`'s. */
  lemma ExtractRoutesByExtension(t: string, strip: Option<nat>, output: string, path: Option<string>, b: Backend)
    ensures Dispatch(Extract(Some(t), strip, output, path)) == Ok(DecompressCall(b, Some(t), output, strip, path))
            <==> Extension(t) == Some(ExtensionOf(b))
  {
  }

  /** `extract` fails, with "Unable to detect extension", exactly when the
      target is absent or its extension is none of `gz`, `xz` and `zip`. */
  lemma ExtractFailsOtherwise(source: Option<string>, strip: Option<nat>, output: string, path: Option<string>)
    ensures Dispatch(Extract(source, strip, output, path)) == Err(ExtractExtensionUnknown)
            <==> source.None? || Extension(source.value) !in {Some("gz"), Some("xz"), Some("zip")}
  {
  }

  /** `compress` goes to backend `b` exactly when the output's extension is
      `b`'s, and otherwise fails naming that extension. */
  lemma CompressRoutesByExtension(target: string, cwd: string, output: string, b: Backend)
    ensures Dispatch(Compress(target, cwd, output)) == Ok(CompressCall(b, target, cwd, output))
            <==> Extension(output) == Some(ExtensionOf(b))
    ensures Dispatch(Compress(target, cwd, output)).Err?
            <==> Extension(output) !in {Some("gz"), Some("xz"), Some("zip")}
  {
  }

  /** The format-specific subcommands look at no extension: they reach their
      own backend whatever the paths are, with `strip_components` and `path`
      passed on unchanged. */
  lemma ExplicitSubcommandsIgnoreExtension(b: Backend, source: Option<string>, strip: Option<nat>, output: string,
                                           path: Option<string>, target: string, cwd: string)
    ensures Dispatch(ExtractWith(b, source, strip, output, path)) == Ok(DecompressCall(b, source, output, strip, path))
    ensures Dispatch(CompressWith(b, target, cwd, output)) == Ok(CompressCall(b, target, cwd, output))
  {
  }

  /** Where `extract` recognises the extension, it does exactly what the
      matching format-specific subcommand does. */
  lemma ExtractAgreesWithExplicit(t: string, strip: Option<nat>, output: string, path: Option<string>)
    requires BackendFor(Extension(t)).Some?
    ensures Dispatch(Extract(Some(t), strip, output, path))
            == Dispatch(ExtractWith(BackendFor(Extension(t)).value, Some(t), strip, output, path))
  {
  }

  // ---------------------------------------------------------------------------
  // Extensions of concrete file names

  /** A path whose last component is `stem.ext`, with a non-empty stem and a
      dot-free `ext`, has extension `ext`, whatever comes before it. */
  lemma ExtensionOfNames(names: seq<string>, stem: string, ext: string)
    requires |names| >= 1 && forall i :: 0 <= i < |names| ==> ValidName(names[i])
    requires names[|names| - 1] == stem + "." + ext && stem != "" && '.' !in ext
    ensures Extension(Unsplit(names)) == Some(ext)
  {
    var name := names[|names| - 1];
    LastNameIsFileName(names);
    SplitExtensionCharacterised(stem, ext, name);
  }

  /** A last component without a dot has no extension. */
  lemma NoDotNoExtension(names: seq<string>)
    requires |names| >= 1 && forall i :: 0 <= i < |names| ==> ValidName(names[i])
    requires '.' !in names[|names| - 1]
    ensures Extension(Unsplit(names)) == None
  {
    var name := names[|names| - 1];
    LastNameIsFileName(names);
    assert LastDot(name).None?;
  }

  /** The file name of `a/b/c` is `c`. */
  lemma LastNameIsFileName(names: seq<string>)
    requires |names| >= 1 && forall i :: 0 <= i < |names| ==> ValidName(names[i])
    ensures FileName(Components(Unsplit(names))) == Some(names[|names| - 1])
    ensures Extension(Unsplit(names)) == SplitExtension(names[|names| - 1])
  {
    ComponentsOfNames(names);
    FileNameOfNormals(names);
  }

  lemma FileNameOfNormals(names: seq<string>)
    requires |names| >= 1
    ensures FileName(Normals(names)) == Some(names[|names| - 1])
  {
    var p := Normals(names);
    assert p[|p| - 1] == Normal(names[|names| - 1]);
  }

  /** A file name whose only dot leads it, like `.gz`, has no extension. */
  lemma LeadingDotNoExtension(name: string, ext: string)
    requires name == "." + ext && ext != "" && '.' !in ext && '/' !in ext
    ensures Extension(name) == None
  {
    assert name[1..] == ext && ".."[1..] == "." && "."[1..] == "";
    assert Unsplit([name]) == name;
    ComponentsOfNames([name]);
    LeadingDotSplit(name, ext);
  }

  lemma LeadingDotSplit(name: string, ext: string)
    requires name == "." + ext && '.' !in ext
    ensures SplitExtension(name) == None
  {
    assert name[1..] == ext && ".."[1..] == ".";
    assert "" + "." + ext == name;
    LastDotOf("", ext);
  }

  /** `dist/app.tar.gz` is extracted by the tar-gz backend: only the part
      after the last dot counts. */
  lemma TarGzNameSelectsTarGz(t: string, strip: Option<nat>, output: string, path: Option<string>)
    requires t == "dist/app.tar.gz"
    ensures Extension(t) == Some("gz")
    ensures Dispatch(Extract(Some(t), strip, output, path)) == Ok(DecompressCall(TarGz, Some(t), output, strip, path))
  {
    var name, stem, ext := "app.tar.gz", "app.tar", "gz";
    assert Unsplit(["dist", name]) == t;
    assert name == stem + "." + ext;
    ExtensionOfNames(["dist", name], stem, ext);
  }

  /** Extensions are compared as written: `GZ` selects no backend. */
  lemma UpperCaseSelectsNothing(ext: string)
    requires ext == "GZ"
    ensures BackendFor(Some(ext)) == None
  {
    assert ext[0] != "gz"[0] && ext[0] != "xz"[0] && |ext| != |"zip"|;
  }

  /** `app.GZ` has extension `GZ`, so `extract` fails on it. */
  lemma UpperCaseExtensionFails(t: string, strip: Option<nat>, output: string, path: Option<string>)
    requires t == "app.GZ"
    ensures Extension(t) == Some("GZ")
    ensures Dispatch(Extract(Some(t), strip, output, path)) == Err(ExtractExtensionUnknown)
  {
    var stem, ext := "app", "GZ";
    assert Unsplit([t]) == t;
    assert t == stem + "." + ext;
    ExtensionOfNames([t], stem, ext);
    UpperCaseSelectsNothing(ext);
  }

  /** `.gz` alone and a name without a dot select no backend either. */
  lemma DotFileAndPlainNameFail(dotFile: string, plain: string, strip: Option<nat>, output: string, path: Option<string>)
    requires dotFile == ".gz" && plain == "archive"
    ensures Extension(dotFile) == None && Extension(plain) == None
    ensures Dispatch(Extract(Some(dotFile), strip, output, path)) == Err(ExtractExtensionUnknown)
    ensures Dispatch(Extract(Some(plain), strip, output, path)) == Err(ExtractExtensionUnknown)
  {
    assert dotFile == "." + "gz";
    LeadingDotNoExtension(dotFile, "gz");
    assert Unsplit([plain]) == plain;
    NoDotNoExtension([plain]);
  }
}

=== FILE: Filesystem.dfy ===
/** The filesystem as the extraction core touches it: directories that exist,
    other files that exist, the ordered log of entries unpacked, and the paths
    at which an I/O operation fails. Only the paths are modelled, never
    contents, permissions or link targets. */
module Filesystem {
  import opened Wrappers
  import opened Paths

  /** What a tar entry unpacks into. */
  datatype EntryKind = File | Directory | Symlink

  /** An abstract filesystem state. `faulty` stands for every reason other
      than a path of the other kind an operation on a path can fail
      (permissions, a full disk, a read-only mount); it is fixed for the run. */
  datatype Disk = Disk(dirs: set<Path>, files: set<Path>, faulty: set<Path>, written: seq<Path>)

  /** `Path::exists` */
  predicate Exists(d: Disk, p: Path) {
    p in d.dirs || p in d.files
  }

  /** No path is both a directory and a file. */
  predicate Disjoint(d: Disk) {
    d.dirs !! d.files
  }

  /** `x` is a proper, non-empty ancestor of `y`: a strictly shorter
      component prefix. */
  predicate Above(x: Path, y: Path) {
    0 < |x| < |y| && y[..|x|] == x
  }

  /** A directory that is missing and cannot be created: the path is faulty,
      or a file is in the way (`create_dir` reports that the path exists, and
      `create_dir_all` then fails because it is not a directory). */
  predicate Blocked(d: Disk, q: Path) {
    q !in d.dirs && (q in d.faulty || q in d.files)
  }

  /** The length of the longest prefix of `p`, from `k` on, that
      `create_dir_all` gets through before it meets a blocked directory. */
  function ReachFrom(d: Disk, p: Path, k: nat): (r: nat)
    requires k <= |p|
    ensures k <= r <= |p|
    ensures forall j :: k < j <= r ==> !Blocked(d, p[..j])
    ensures r < |p| ==> Blocked(d, p[..r + 1])
    decreases |p| - k
  {
    if k == |p| then k
    else if Blocked(d, p[..k + 1]) then k
    else ReachFrom(d, p, k + 1)
  }

  /** The non-empty prefixes of `p` of length at most `k`. */
  function Prefixes(p: Path, k: nat): set<Path>
    requires k <= |p|
  {
    set j | 1 <= j <= k :: p[..j]
  }

  /** A prefix of `p` in `Prefixes(p, k)` is at most `k` long. */
  lemma PrefixesBound(p: Path, k: nat, i: nat)
    requires k <= |p| && i <= |p|
    ensures p[..i] in Prefixes(p, k) <==> 1 <= i <= k
  {
    if p[..i] in Prefixes(p, k) {
      var j :| 1 <= j <= k && p[..j] == p[..i];
      assert |p[..j]| == j && |p[..i]| == i;
    }
  }

  /** The ancestors of `p` are among the prefixes of `p`. */
  lemma ParentPrefixes(p: Path)
    requires p != []
    ensures Prefixes(p[..|p| - 1], |p| - 1) <= Prefixes(p, |p|)
  {
    var q := p[..|p| - 1];
    forall j | 1 <= j <= |q| ensures q[..j] in Prefixes(p, |p|) {
      assert q[..j] == p[..j];
    }
  }

  /** `std::fs::create_dir_all(p)`: ancestors first, existing directories are
      accepted, and the first directory that cannot be created stops the call
      with the ones before it left in place. The empty path succeeds at once. */
  function CreateDirAllOn(d: Disk, p: Path): (r: (Disk, bool))
    ensures r.1 <==> forall j :: 1 <= j <= |p| ==> !Blocked(d, p[..j])
    ensures r.1 ==> forall j :: 1 <= j <= |p| ==> p[..j] in r.0.dirs
    ensures forall j :: 1 <= j <= |p| && (forall i :: 1 <= i <= j ==> !Blocked(d, p[..i])) ==> p[..j] in r.0.dirs
    ensures forall j :: 1 <= j <= |p| && Blocked(d, p[..j]) ==>
              forall i :: j <= i <= |p| ==> (p[..i] in r.0.dirs <==> p[..i] in d.dirs)
    ensures d.dirs <= r.0.dirs <= d.dirs + Prefixes(p, |p|)
    ensures forall q :: q in r.0.dirs && q !in d.dirs ==> q !in d.files && q !in d.faulty
    ensures r.0.files == d.files && r.0.faulty == d.faulty && r.0.written == d.written
  {
    var k := ReachFrom(d, p, 0);
    ReachedPrefixes(d, p, k);
    PastBlockedUnchanged(d, p, k);
    CreatedWereFree(d, p, k);
    (d.(dirs := d.dirs + Prefixes(p, k)), k == |p|)
  }

  /** The prefixes `create_dir_all` gets through are the ones before the
      first blocked one. */
  lemma ReachedPrefixes(d: Disk, p: Path, k: nat)
    requires k == ReachFrom(d, p, 0)
    ensures k == |p| ==> forall j :: 1 <= j <= |p| ==> p[..j] in Prefixes(p, k)
    ensures Prefixes(p, k) <= Prefixes(p, |p|)
    ensures forall j :: 1 <= j <= |p| && (forall i :: 1 <= i <= j ==> !Blocked(d, p[..i])) ==> p[..j] in Prefixes(p, k)
  {
    forall j | 1 <= j <= |p| && (forall i :: 1 <= i <= j ==> !Blocked(d, p[..i])) ensures p[..j] in Prefixes(p, k) {
      PrefixesBound(p, k, j);
    }
  }

  /** Nothing at or past a blocked prefix is among those created. */
  lemma PastBlockedUnchanged(d: Disk, p: Path, k: nat)
    requires k == ReachFrom(d, p, 0)
    ensures forall j :: 1 <= j <= |p| && Blocked(d, p[..j]) ==>
              forall i :: j <= i <= |p| ==> p[..i] !in Prefixes(p, k)
  {
    forall j, i | 1 <= j <= |p| && Blocked(d, p[..j]) && j <= i <= |p|
      ensures p[..i] !in Prefixes(p, k)
    {
      assert j > k;
      PrefixesBound(p, k, i);
    }
  }

  /** Every directory created was neither a file nor faulty. */
  lemma CreatedWereFree(d: Disk, p: Path, k: nat)
    requires k == ReachFrom(d, p, 0)
    ensures forall q :: q in Prefixes(p, k) && q !in d.dirs ==> q !in d.files && q !in d.faulty
  {
    forall q | q in Prefixes(p, k) && q !in d.dirs ensures q !in d.files && q !in d.faulty {
      var j :| 1 <= j <= k && q == p[..j];
      assert !Blocked(d, p[..j]);
    }
  }

  /** The directory a destination is unpacked into is there (an empty parent
      is the working directory; the root has no parent). */
  predicate ParentReady(d: Disk, dest: Path) {
    match Parent(dest)
    case None => true
    case Some(q) => q == [] || q in d.dirs
  }

  /** What is already at `dest` that an entry of this kind does not replace:
      a directory entry does not replace a file (`create_dir` finds it and
      it is not a directory), and a file or a link does not replace a
      directory (removing the directory fails). An existing file is replaced.
      An unpacked symbolic link counts as a file here: its target is not
      modelled, so one that names a directory is not followed. */
  predicate Clash(d: Disk, dest: Path, kind: EntryKind) {
    if kind == Directory then dest in d.files else dest in d.dirs
  }

  /** `Entry::unpack(dest)` of the tar library: it does not create missing
      parents, so it fails when the parent directory is absent; it fails at
      a faulty path and over a path of the other kind. A success is logged
      in `written`. */
  function UnpackOn(d: Disk, dest: Path, kind: EntryKind): (r: (Disk, bool))
    ensures r.1 <==> dest !in d.faulty && ParentReady(d, dest) && !Clash(d, dest, kind)
    ensures r.1 ==> r.0.written == d.written + [dest]
    ensures r.1 ==> (if kind == Directory then dest in r.0.dirs else dest in r.0.files)
                    && r.0.dirs + r.0.files == d.dirs + d.files + {dest}
    ensures r.0.dirs <= d.dirs + {dest} && r.0.files <= d.files + {dest}
    ensures kind == Directory ==> r.0.files == d.files
    ensures kind != Directory ==> r.0.dirs == d.dirs
    ensures !r.1 ==> r.0 == d
    ensures d.dirs <= r.0.dirs && d.files <= r.0.files && r.0.faulty == d.faulty
  {
    if dest in d.faulty || !ParentReady(d, dest) || Clash(d, dest, kind) then (d, false)
    else if kind == Directory then (d.(dirs := d.dirs + {dest}, written := d.written + [dest]), true)
    else (d.(files := d.files + {dest}, written := d.written + [dest]), true)
  }

  /** The process's view of the filesystem, changed in place by the two
      operations the extraction core performs. */
  class FileSystem {
    var dirs: set<Path>
    var files: set<Path>
    const faulty: set<Path>
    var written: seq<Path>

    function State(): Disk
      reads this
    {
      Disk(dirs, files, faulty, written)
    }

    constructor (dirs0: set<Path>, files0: set<Path>, faulty0: set<Path>)
      ensures State() == Disk(dirs0, files0, faulty0, [])
    {
      dirs, files, faulty, written := dirs0, files0, faulty0, [];
    }

    method CreateDirAll(p: Path) returns (ok: bool)
      modifies this
      ensures (State(), ok) == CreateDirAllOn(old(State()), p)
    {
      var k := ReachFrom(State(), p, 0);
      dirs := dirs + Prefixes(p, k);
      ok := k == |p|;
    }

    method Unpack(dest: Path, kind: EntryKind) returns (ok: bool)
      modifies this
      ensures (State(), ok) == UnpackOn(old(State()), dest, kind)
    {
      ok := dest !in faulty && ParentReady(State(), dest) && !Clash(State(), dest, kind);
      if ok {
        if kind == Directory {
          dirs := dirs + {dest};
        } else {
          files := files + {dest};
        }
        written := written + [dest];
      }
    }
  }
}

=== FILE: PathLemmas.dfy ===
/** Facts about the path model: splitting and unsplitting are inverse, a
    well-formed component sequence survives `collect::<PathBuf>()` followed by
    `components()` unchanged, a trailing separator is ignored, and
    `starts_with` is component-wise prefix. */
module PathLemmas {
  import opened Wrappers
  import opened Paths

  // ---------------------------------------------------------------------------
  // Split and Unsplit

  /** The segments hold no separator, and gluing them back gives `s`. */
  lemma {:induction false} SplitFacts(s: string)
    ensures forall i :: 0 <= i < |Split(s)| ==> '/' !in Split(s)[i]
    ensures Unsplit(Split(s)) == s
    decreases |s|
  {
    if |s| > 0 {
      var rest := Split(s[1..]);
      SplitFacts(s[1..]);
      var segs := Split(s);
      if s[0] == '/' {
        assert segs == [""] + rest && segs[1..] == rest;
      } else {
        assert segs == [[s[0]] + rest[0]] + rest[1..] && segs[1..] == rest[1..];
        forall i | 0 <= i < |segs| ensures '/' !in segs[i] {
          if i > 0 { assert segs[i] == rest[i]; }
        }
        assert s == [s[0]] + s[1..];
      }
    }
  }

  /** Parsing separator-free segments yields only components that may stand
      anywhere in a path. */
  lemma {:induction false} ParsePlain(segs: seq<string>)
    requires forall i :: 0 <= i < |segs| ==> '/' !in segs[i]
    ensures AllPlain(Parse(segs))
    decreases |segs|
  {
    if segs != [] {
      ParsePlain(segs[1..]);
      var head, tail := Segment(segs[0]), Parse(segs[1..]);
      assert Parse(segs) == head + tail;
      forall i | 0 <= i < |head + tail| ensures Plain((head + tail)[i]) {
        if i >= |head| { assert (head + tail)[i] == tail[i - |head|]; }
      }
    }
  }

  /** `components` only ever yields well-formed sequences. */
  lemma ComponentsWellFormed(s: string)
    ensures WellFormed(Components(s))
  {
    var segs := Split(s);
    SplitFacts(s);
    assert forall i :: 0 <= i < |segs[1..]| ==> '/' !in segs[1..][i] by {
      forall i | 0 <= i < |segs[1..]| ensures '/' !in segs[1..][i] { assert segs[1..][i] == segs[i + 1]; }
    }
    ParsePlain(segs[1..]);
    ParsePlain(segs);
    var p := Components(s);
    if |s| > 0 && s[0] == '/' {
      assert p[1..] == Parse(segs[1..]);
    } else if segs[0] == "." {
      assert p[1..] == Parse(segs[1..]);
    } else {
      assert p == Parse(segs);
      if p != [] {
        assert Plain(p[0]);
        assert forall i :: 0 <= i < |p[1..]| ==> p[1..][i] == p[i + 1];
      }
    }
  }

  lemma {:induction false} SplitNoSeparator(a: string)
    requires '/' !in a
    ensures Split(a) == [a]
    decreases |a|
  {
    if a != [] {
      SplitNoSeparator(a[1..]);
      assert a == [a[0]] + a[1..];
    }
  }

  lemma {:induction false} SplitCons(a: string, t: string)
    requires '/' !in a
    ensures Split(a + "/" + t) == [a] + Split(t)
    decreases |a|
  {
    var s := a + "/" + t;
    if a == [] {
      assert s[1..] == t;
    } else {
      assert s[1..] == a[1..] + "/" + t;
      SplitCons(a[1..], t);
      assert a == [a[0]] + a[1..];
    }
  }

  /** Splitting undoes unsplitting, for segments free of separators. */
  lemma {:induction false} SplitUnsplit(segs: seq<string>)
    requires |segs| >= 1
    requires forall i :: 0 <= i < |segs| ==> '/' !in segs[i]
    ensures Split(Unsplit(segs)) == segs
    decreases |segs|
  {
    if |segs| == 1 {
      SplitNoSeparator(segs[0]);
    } else {
      SplitUnsplit(segs[1..]);
      SplitCons(segs[0], Unsplit(segs[1..]));
    }
  }

  lemma {:induction false} UnsplitSnoc(segs: seq<string>, x: string)
    requires |segs| >= 1
    ensures Unsplit(segs + [x]) == Unsplit(segs) + "/" + x
    decreases |segs|
  {
    if |segs| > 1 {
      assert (segs + [x])[1..] == segs[1..] + [x];
      UnsplitSnoc(segs[1..], x);
    }
  }

  lemma {:induction false} UnsplitLast(segs: seq<string>)
    requires |segs| >= 1 && segs[|segs| - 1] != ""
    ensures var u, l := Unsplit(segs), segs[|segs| - 1]; |u| > 0 && u[|u| - 1] == l[|l| - 1]
    decreases |segs|
  {
    if |segs| > 1 {
      UnsplitLast(segs[1..]);
    }
  }

  lemma {:induction false} SplitTrailingSeparator(s: string)
    ensures Split(s + "/") == Split(s) + [""]
    decreases |s|
  {
    if s != [] {
      assert (s + "/")[1..] == s[1..] + "/";
      SplitTrailingSeparator(s[1..]);
    }
  }

  lemma {:induction false} ParseTrailingEmpty(segs: seq<string>)
    ensures Parse(segs + [""]) == Parse(segs)
    decreases |segs|
  {
    if segs != [] {
      assert (segs + [""])[1..] == segs[1..] + [""];
      ParseTrailingEmpty(segs[1..]);
    }
  }

  /** A trailing '/' (as on a tar directory entry such as `pkg/`) changes
      nothing about the components of a non-empty path. */
  lemma {:induction false} TrailingSeparatorIgnored(s: string)
    requires |s| > 0
    ensures Components(s + "/") == Components(s)
  {
    var t := s + "/";
    SplitTrailingSeparator(s);
    var segs := Split(s);
    assert Split(t) == segs + [""];
    assert t[0] == s[0];
    assert Split(t)[1..] == segs[1..] + [""];
    ParseTrailingEmpty(segs[1..]);
    ParseTrailingEmpty(segs);
  }

  // ---------------------------------------------------------------------------
  // Render and Components are inverse on well-formed sequences

  function Texts(p: Path): (t: seq<string>)
    ensures |t| == |p|
  {
    seq(|p|, i requires 0 <= i < |p| => Text(p[i]))
  }

  /** The segments that `Render(p)` glues together with '/'. */
  function Segs(p: Path): (segs: seq<string>)
    ensures |segs| >= 1
  {
    if p == [] then [""]
    else if p[0].RootDir? then (if |p| == 1 then ["", ""] else [""] + Texts(p[1..]))
    else Texts(p)
  }

  lemma SegsHaveNoSeparator(p: Path)
    requires WellFormed(p)
    ensures forall i :: 0 <= i < |Segs(p)| ==> '/' !in Segs(p)[i]
  {
    forall i | 0 <= i < |Segs(p)| ensures '/' !in Segs(p)[i] {
      if p != [] && p[0].RootDir? && |p| > 1 && i > 0 {
        assert Segs(p)[i] == Text(p[1..][i - 1]);
      }
    }
  }

  lemma SegsSnoc(q: Path, c: Component)
    requires WellFormed(q) && q != [] && q != [RootDir] && Plain(c)
    ensures WellFormed(q + [c])
    ensures Segs(q + [c]) == Segs(q) + [Text(c)]
  {
    var p := q + [c];
    assert p[1..] == q[1..] + [c];
    if p[0].RootDir? {
      assert Texts(p[1..]) == Texts(q[1..]) + [Text(c)];
    } else {
      assert Texts(p) == Texts(q) + [Text(c)];
    }
  }

  lemma LastSegment(q: Path)
    requires WellFormed(q) && q != [] && q != [RootDir]
    ensures var segs := Segs(q); segs[|segs| - 1] != "" && '/' !in segs[|segs| - 1]
  {
    SegsLast(q);
    LastText(q);
  }

  /** The last segment is the text of the last component. */
  lemma SegsLast(q: Path)
    requires q != [] && q != [RootDir]
    ensures Segs(q)[|Segs(q)| - 1] == Text(q[|q| - 1])
  {
    var segs := Segs(q);
    if q[0].RootDir? {
      var t := Texts(q[1..]);
      assert |q| > 1;
      assert segs == [""] + t;
      assert segs[|segs| - 1] == t[|t| - 1];
      assert q[1..][|q| - 2] == q[|q| - 1];
    } else {
      assert segs == Texts(q);
    }
  }

  /** The last component of a well-formed path other than the root has a
      non-empty text without a separator. */
  lemma LastText(q: Path)
    requires WellFormed(q) && q != [] && q != [RootDir]
    ensures Text(q[|q| - 1]) != "" && '/' !in Text(q[|q| - 1])
  {
    var last := q[|q| - 1];
    assert last.CurDir? || Plain(last) by {
      if |q| > 1 { assert last == q[1..][|q| - 2]; }
    }
    if last.CurDir? {
      assert Text(last) == ".";
    } else if last.ParentDir? {
      assert Text(last) == "..";
    } else {
      assert Text(last) == last.name && ValidName(last.name);
    }
  }

  /** One push after the first component: a '/' and the component's text. */
  lemma RenderSnoc(q: Path, c: Component)
    requires WellFormed(q) && q != [] && q != [RootDir] && Plain(c)
    requires Render(q) == Unsplit(Segs(q))
    ensures WellFormed(q + [c])
    ensures Render(q + [c]) == Unsplit(Segs(q + [c]))
  {
    var p := q + [c];
    assert p[..|p| - 1] == q;
    SegsSnoc(q, c);
    LastSegment(q);
    UnsplitLast(Segs(q));
    UnsplitSnoc(Segs(q), Text(c));
  }

  /** Pushing the components of a well-formed path one by one yields its
      segments joined by '/'. */
  lemma {:induction false} RenderIsUnsplit(p: Path)
    requires WellFormed(p)
    ensures Render(p) == Unsplit(Segs(p))
    decreases |p|
  {
    if |p| >= 2 {
      var q, c := p[..|p| - 1], p[|p| - 1];
      assert p == q + [c];
      assert q[1..] == p[1..][..|p| - 2];
      assert Plain(c) by { assert c == p[1..][|p| - 2]; }
      RenderIsUnsplit(q);
      if q == [RootDir] {
        assert p[1..] == [c];
      } else {
        RenderSnoc(q, c);
      }
    }
  }

  lemma {:induction false} ParseTexts(q: Path)
    requires AllPlain(q)
    ensures forall i :: 0 <= i < |Texts(q)| ==> '/' !in Texts(q)[i]
    ensures Parse(Texts(q)) == q
    decreases |q|
  {
    if q != [] {
      assert Texts(q)[1..] == Texts(q[1..]);
      ParseTexts(q[1..]);
    }
  }

  lemma RoundTripRooted(p: Path)
    requires WellFormed(p) && p != [] && p[0].RootDir?
    ensures Components(Render(p)) == p
  {
    RenderIsUnsplit(p);
    SegsHaveNoSeparator(p);
    SplitUnsplit(Segs(p));
    var s := Render(p);
    assert Split(s) == Segs(p);
    assert s[0] == '/';
    if |p| > 1 {
      assert Segs(p)[1..] == Texts(p[1..]);
      ParseTexts(p[1..]);
      assert Components(s) == [RootDir] + p[1..];
    } else {
      assert Segs(p)[1..] == [""];
      assert Parse([""]) == [];
      assert Components(s) == [RootDir];
    }
  }

  lemma RoundTripRelative(p: Path)
    requires WellFormed(p) && p != [] && !p[0].RootDir?
    ensures Components(Render(p)) == p
  {
    var s, segs := Render(p), Segs(p);
    RenderIsUnsplit(p);
    SegsHaveNoSeparator(p);
    SplitUnsplit(segs);
    assert Split(s) == segs && segs == Texts(p);
    assert segs[0] == Text(p[0]) && Text(p[0]) != "";
    UnsplitFirst(segs);
    assert s[0] != '/' by { assert s[0] == segs[0][0]; }
    assert segs[1..] == Texts(p[1..]);
    if p[0].CurDir? {
      ParseTexts(p[1..]);
      assert Components(s) == [CurDir] + p[1..];
    } else {
      assert segs[0] != ".";
      ParseTexts(p);
      assert Components(s) == Parse(segs);
    }
  }

  /** Round trip: collecting a well-formed component sequence into a
      `PathBuf` and asking for its components again gives the same sequence. */
  lemma ComponentsOfRender(p: Path)
    requires WellFormed(p)
    ensures Components(Render(p)) == p
  {
    if p == [] {
    } else if p[0].RootDir? {
      RoundTripRooted(p);
    } else {
      RoundTripRelative(p);
    }
  }

  /** A rendered well-formed path is empty exactly when it has no components. */
  lemma RenderEmptyIff(p: Path)
    requires WellFormed(p)
    ensures Render(p) == "" <==> p == []
  {
    if p != [] {
      var c := p[|p| - 1];
      assert c.RootDir? || c.CurDir? || Plain(c) by {
        if |p| > 1 { assert c == p[1..][|p| - 2]; }
      }
    }
  }

  /** Dropping leading components keeps a sequence well-formed. */
  lemma SuffixWellFormed(p: Path, n: nat)
    requires WellFormed(p) && n <= |p|
    ensures WellFormed(p[n..])
  {
    if 0 < n < |p| {
      assert forall i :: 0 <= i < |p[n..]| ==> p[n..][i] == p[1..][n - 1 + i];
    }
  }

  // ---------------------------------------------------------------------------
  // Components of paths written out as names

  function Normals(names: seq<string>): (p: Path)
    ensures |p| == |names|
  {
    seq(|names|, i requires 0 <= i < |names| => Normal(names[i]))
  }

  lemma {:induction false} ParseNames(names: seq<string>)
    requires forall i :: 0 <= i < |names| ==> ValidName(names[i])
    ensures (forall i :: 0 <= i < |names| ==> '/' !in names[i]) && Parse(names) == Normals(names)
    decreases |names|
  {
    if names != [] {
      assert Normals(names) == [Normal(names[0])] + Normals(names[1..]);
      ParseNames(names[1..]);
    }
  }

  /** `a/b/c` has components `a`, `b`, `c`. */
  lemma ComponentsOfNames(names: seq<string>)
    requires |names| >= 1 && forall i :: 0 <= i < |names| ==> ValidName(names[i])
    ensures Components(Unsplit(names)) == Normals(names)
  {
    SplitUnsplit(names);
    ParseNames(names);
    UnsplitFirst(names);
  }

  /** `./a/b` has components `.`, `a`, `b`: the leading `.` is kept. */
  lemma ComponentsOfDotNames(names: seq<string>)
    requires forall i :: 0 <= i < |names| ==> ValidName(names[i])
    ensures Components(Unsplit(["."] + names)) == [CurDir] + Normals(names)
  {
    var segs := ["."] + names;
    var s := Unsplit(segs);
    DotNamesSplit(names);
    ParseNames(names);
    assert segs[1..] == names;
    assert Components(s) == [CurDir] + Parse(names);
  }

  lemma DotNamesSplit(names: seq<string>)
    requires forall i :: 0 <= i < |names| ==> ValidName(names[i])
    ensures Split(Unsplit(["."] + names)) == ["."] + names
    ensures Unsplit(["."] + names)[0] == '.'
  {
    var segs := ["."] + names;
    forall i | 0 <= i < |segs| ensures '/' !in segs[i] {
      if i > 0 { assert segs[i] == names[i - 1]; }
    }
    SplitUnsplit(segs);
    UnsplitFirst(segs);
  }

  lemma UnsplitFirst(segs: seq<string>)
    requires |segs| >= 1 && segs[0] != ""
    ensures |Unsplit(segs)| > 0 && Unsplit(segs)[0] == segs[0][0]
  {
  }

  // ---------------------------------------------------------------------------
  // starts_with, join

  /** The standard library's lock-step walk decides exactly component-wise prefix. */
  lemma {:induction false} IterAfterIsPrefix(p: Path, base: Path)
    ensures IterAfter(p, base) <==> StartsWith(p, base)
    decreases |base|
  {
    if base != [] && p != [] {
      IterAfterIsPrefix(p[1..], base[1..]);
      if StartsWith(p, base) {
        assert p[1..][..|base| - 1] == p[..|base|][1..];
      }
      if p[0] == base[0] && StartsWith(p[1..], base[1..]) {
        assert p[..|base|] == [p[0]] + p[1..][..|base| - 1];
        assert base == [base[0]] + base[1..];
      }
    }
  }

  /** Joining a path made only of names appends it below `base`. */
  lemma JoinNamesStaysUnder(base: Path, rel: Path)
    requires AllNormal(rel)
    ensures Join(base, rel) == base + rel
    ensures StartsWith(Join(base, rel), base)
  {
    assert (base + rel)[..|base|] == base;
  }

  // ---------------------------------------------------------------------------
  // extension

  lemma {:induction false} LastDotOf(stem: string, ext: string)
    requires '.' !in ext
    ensures LastDot(stem + "." + ext) == Some(|stem|)
    decreases |ext|
  {
    var s := stem + "." + ext;
    if ext != [] {
      assert s[..|s| - 1] == stem + "." + ext[..|ext| - 1];
      assert s[|s| - 1] == ext[|ext| - 1];
      LastDotOf(stem, ext[..|ext| - 1]);
    }
  }

  /** A name `stem.ext` with a non-empty stem and a dot-free `ext` has
      extension `ext`, and every extension arises this way. */
  lemma SplitExtensionCharacterised(stem: string, ext: string, name: string)
    ensures stem != "" && '.' !in ext && name == stem + "." + ext && name != ".."
            ==> SplitExtension(name) == Some(ext)
    ensures SplitExtension(name) == Some(ext)
            ==> var i := |name| - |ext| - 1;
                0 < i && name == name[..i] + "." + ext && '.' !in ext
  {
    if stem != "" && '.' !in ext && name == stem + "." + ext && name != ".." {
      LastDotOf(stem, ext);
    }
    if SplitExtension(name) == Some(ext) {
      var i := LastDot(name).value;
      assert name == name[..i] + "." + name[i + 1..];
    }
  }
}

=== FILE: Paths.dfy ===
/** The part of Rust's `std::path` (Unix flavour) that the extraction core relies
    on: splitting a path into components, collecting components back into a
    `PathBuf`, `starts_with`, `join`, `parent`, `file_name` and `extension`.
    A path value is modelled by its component sequence. */
module Paths {
  import opened Wrappers

  /** One item yielded by `Path::components` on Unix. */
  datatype Component = RootDir | CurDir | ParentDir | Normal(name: string)

  type Path = seq<Component>

  /** A name that `components` can yield inside `Normal`. */
  predicate ValidName(x: string) {
    x != "" && x != "." && x != ".." && '/' !in x
  }

  /** A component that may stand at any position of a parsed path. */
  predicate Plain(c: Component) {
    c.ParentDir? || (c.Normal? && ValidName(c.name))
  }

  predicate AllPlain(p: Path) {
    forall i :: 0 <= i < |p| ==> Plain(p[i])
  }

  /** A path made only of named components: no root, no `.`, no `..`. */
  predicate AllNormal(p: Path) {
    forall i :: 0 <= i < |p| ==> p[i].Normal? && ValidName(p[i].name)
  }

  /** The shape of every sequence that `components` yields: a root or a
      leading `.` may only stand first. */
  predicate WellFormed(p: Path) {
    p == [] || ((p[0].RootDir? || p[0].CurDir? || Plain(p[0])) && AllPlain(p[1..]))
  }

  // ---------------------------------------------------------------------------
  // Splitting a string on '/'

  /** Glue segments back together with '/' between them. */
  function Unsplit(segs: seq<string>): string
    requires |segs| >= 1
    decreases |segs|
  {
    if |segs| == 1 then segs[0] else segs[0] + "/" + Unsplit(segs[1..])
  }

  /** The '/'-separated segments of `s`, empty ones included; `Unsplit` is
      its inverse (see `PathLemmas.SplitFacts`). */
  function Split(s: string): (segs: seq<string>)
    ensures |segs| >= 1
    decreases |s|
  {
    if |s| == 0 then [""]
    else
      var rest := Split(s[1..]);
      if s[0] == '/' then [""] + rest
      else [[s[0]] + rest[0]] + rest[1..]
  }

  // ---------------------------------------------------------------------------
  // Path::components

  /** What one segment contributes: empty segments (repeated or trailing
      separators) and `.` vanish, `..` is the parent directory. */
  function Segment(x: string): Path {
    if x == "" || x == "." then [] else if x == ".." then [ParentDir] else [Normal(x)]
  }

  function Parse(segs: seq<string>): Path
    decreases |segs|
  {
    if segs == [] then [] else Segment(segs[0]) + Parse(segs[1..])
  }

  /** `Path::components` on Unix: a leading '/' is the root, a leading `.`
      segment of a relative path is kept as `CurDir`, every other empty or
      `.` segment is dropped. */
  function Components(s: string): Path {
    var segs := Split(s);
    if |s| > 0 && s[0] == '/' then [RootDir] + Parse(segs[1..])
    else if segs[0] == "." then [CurDir] + Parse(segs[1..])
    else Parse(segs)
  }

  // ---------------------------------------------------------------------------
  // Collecting components into a PathBuf

  function Text(c: Component): string {
    match c
    case RootDir => "/"
    case CurDir => "."
    case ParentDir => ".."
    case Normal(x) => x
  }

  /** `PathBuf::push` of one component: a root replaces the buffer; anything
      else is appended, after a '/' unless the buffer is empty or already
      ends in one. */
  function Push(buf: string, c: Component): string {
    if c.RootDir? then "/"
    else if buf == [] || buf[|buf| - 1] == '/' then buf + Text(c)
    else buf + "/" + Text(c)
  }

  /** `components.iter().collect::<PathBuf>()`: push each component in turn. */
  function Render(p: Path): string
    decreases |p|
  {
    if p == [] then "" else Push(Render(p[..|p| - 1]), p[|p| - 1])
  }

  // ---------------------------------------------------------------------------
  // Path operations

  /** `Path::starts_with`, as the standard library computes it: walk both
      component lists in step; succeed when `base` runs out first. */
  function IterAfter(p: Path, base: Path): bool
    decreases |base|
  {
    if base == [] then true
    else if p == [] then false
    else p[0] == base[0] && IterAfter(p[1..], base[1..])
  }

  /** Component-wise prefix: the meaning of `starts_with`. */
  predicate StartsWith(p: Path, base: Path) {
    |base| <= |p| && p[..|base|] == base
  }

  /** `base.join(rel)` read back through `components`: an absolute `rel`
      replaces `base`; otherwise `rel` is appended, and a leading `.` of
      `rel` disappears once it is no longer at the start. */
  function Join(base: Path, rel: Path): Path {
    if |rel| > 0 && rel[0].RootDir? then rel
    else if |base| > 0 && |rel| > 0 && rel[0].CurDir? then base + rel[1..]
    else base + rel
  }

  /** `Path::parent`: drop the last component, unless there is none or the
      path is just the root. */
  function Parent(p: Path): Option<Path> {
    if p == [] || p[|p| - 1].RootDir? then None else Some(p[..|p| - 1])
  }

  /** `Path::file_name`: the last component when it is a name. */
  function FileName(p: Path): Option<string> {
    if p != [] && p[|p| - 1].Normal? then Some(p[|p| - 1].name) else None
  }

  /** Position of the last '.' in `s`. */
  function LastDot(s: string): (r: Option<nat>)
    ensures r.Some? ==> r.value < |s| && s[r.value] == '.' && '.' !in s[r.value + 1..]
    ensures r.None? ==> '.' !in s
    decreases |s|
  {
    if s == [] then None
    else if s[|s| - 1] == '.' then Some(|s| - 1)
    else
      var r := LastDot(s[..|s| - 1]);
      assert s == s[..|s| - 1] + [s[|s| - 1]];
      assert r.Some? ==> s[r.value + 1..] == s[..|s| - 1][r.value + 1..] + [s[|s| - 1]];
      r
  }

  /** The extension half of a file name split at its last dot; `..`, a name
      without a dot, and a name whose only dot leads it have none. */
  function SplitExtension(name: string): Option<string> {
    if name == ".." then None
    else
      match LastDot(name)
      case None => None
      case Some(i) => if i == 0 then None else Some(name[i + 1..])
  }

  /** `Path::extension` of the path written as `s`. */
  function Extension(s: string): Option<string> {
    match FileName(Components(s))
    case None => None
    case Some(name) => SplitExtension(name)
  }
}

=== FILE: TarGz.dfy ===
/** `decompress_tar_gz`: create the output directory, open the input, then walk
    the archive's entries in order, stripping leading components, applying the
    optional sub-path filter, creating parent directories and unpacking.

    The gzip and tar decoding is not modelled: the archive is the sequence of
    items the tar reader yields. The functions below are the reference
    semantics; `DecompressTarGz` is the loop that performs it on a
    `FileSystem` object. */
module TarGz {
  import opened Wrappers
  import opened Paths
  import opened Filesystem

  /** One item of `archive.entries()`: an entry with its header path and
      kind, or an error (a corrupt header, a truncated stream, a path that
      cannot be read). */
  datatype Item = Entry(path: string, kind: EntryKind) | Unreadable

  /** Where the archive comes from: a named file (the path `resolve_path`
      returns for it) or standard input. */
  datatype InputTarget = Named(file: Path) | Stdin

  /** The failures `decompress_tar_gz` reports, one per `?` or `bail!`. */
  datatype Error =
    | OutputDirFailed(dir: Path)
    | ArchiveMissing(file: Path)
    | OpenFailed(file: Path)
    | EntryUnreadable
    | ParentDirFailed(dir: Path)
    | UnpackFailed(dest: Path)

  /** `strip_components.unwrap_or(0)` */
  function StripCount(strip: Option<nat>): nat {
    strip.UnwrapOr(0)
  }

  /** The per-entry path decision: `None` when the entry is skipped, else the
      stripped path the entry is written under. Follows the source step by
      step: count components, rebuild a `PathBuf` from all but the first `n`,
      skip it if empty, then test it against the filter with `starts_with`. */
  function StrippedPath(path: string, n: nat, filter: Option<string>): Option<Path> {
    var cs := Components(path);
    if |cs| <= n then None
    else
      var stripped := Render(cs[n..]);
      if stripped == "" then None
      else if filter.Some? && !IterAfter(Components(stripped), Components(filter.value)) then None
      else Some(Components(stripped))
  }

  /** Where an item is written when every operation succeeds. */
  function Destination(output: Path, item: Item, n: nat, filter: Option<string>): Option<Path> {
    match item
    case Unreadable => None
    case Entry(path, _) =>
      match StrippedPath(path, n, filter)
      case None => None
      case Some(rel) => Some(Join(output, rel))
  }

  /** The destination of one item, as a list of zero or one paths. */
  function Written(output: Path, item: Item, n: nat, filter: Option<string>): seq<Path> {
    match Destination(output, item, n, filter)
    case None => []
    case Some(dest) => [dest]
  }

  /** The destinations of `items`, in archive order. */
  function Plan(output: Path, items: seq<Item>, n: nat, filter: Option<string>): seq<Path>
    decreases |items|
  {
    if items == [] then []
    else Written(output, items[0], n, filter) + Plan(output, items[1..], n, filter)
  }

  /** Unpack one destination and report the outcome. */
  function Install(d: Disk, dest: Path, kind: EntryKind): (Disk, Outcome<Error>) {
    var (d', ok) := UnpackOn(d, dest, kind);
    (d', if ok then Pass else Fail(UnpackFailed(dest)))
  }

  /** What happens to a kept entry: create its parent chain, then unpack it. */
  function Place(d: Disk, dest: Path, kind: EntryKind): (Disk, Outcome<Error>) {
    match Parent(dest)
    case None => Install(d, dest, kind)
    case Some(dir) =>
      var (d', ok) := CreateDirAllOn(d, dir);
      if ok then Install(d', dest, kind) else (d', Fail(ParentDirFailed(dir)))
  }

  /** One iteration of the entry loop. */
  function Step(d: Disk, output: Path, n: nat, filter: Option<string>, item: Item): (Disk, Outcome<Error>) {
    match item
    case Unreadable => (d, Fail(EntryUnreadable))
    case Entry(_, kind) =>
      match Destination(output, item, n, filter)
      case None => (d, Pass)
      case Some(dest) => Place(d, dest, kind)
  }

  /** The entry loop: items strictly in order; the first failure ends the run
      and leaves everything done before it in place. */
  function RunEntries(d: Disk, output: Path, n: nat, filter: Option<string>, items: seq<Item>): (Disk, Outcome<Error>)
    decreases |items|
  {
    if items == [] then (d, Pass)
    else
      var (d', o) := Step(d, output, n, filter, items[0]);
      if o.Fail? then (d', o) else RunEntries(d', output, n, filter, items[1..])
  }

  /** The whole of `decompress_tar_gz`. */
  function Decompress(d: Disk, target: InputTarget, output: Path, strip: Option<nat>,
                      filter: Option<string>, items: seq<Item>): (Disk, Outcome<Error>)
  {
    var (d', ok) := CreateDirAllOn(d, output);
    if !ok then (d', Fail(OutputDirFailed(output)))
    else
      match target
      case Stdin => RunEntries(d', output, StripCount(strip), filter, items)
      case Named(file) =>
        if !Exists(d', file) then (d', Fail(ArchiveMissing(file)))
        else if file in d'.faulty then (d', Fail(OpenFailed(file)))
        else RunEntries(d', output, StripCount(strip), filter, items)
  }

  /** `decompress_tar_gz(target, output, strip_components, path)` on the
      filesystem `fs`, with `items` what the tar reader yields. */
  method DecompressTarGz(fs: FileSystem, target: InputTarget, output: Path, strip: Option<nat>,
                         filter: Option<string>, items: seq<Item>) returns (r: Outcome<Error>)
    modifies fs
    ensures (fs.State(), r) == Decompress(old(fs.State()), target, output, strip, filter, items)
  {
    var ok := fs.CreateDirAll(output);
    if !ok {
      return Fail(OutputDirFailed(output));
    }
    match target {
      case Named(file) =>
        if !Exists(fs.State(), file) {
          return Fail(ArchiveMissing(file));
        }
        if file in fs.faulty {
          return Fail(OpenFailed(file));
        }
      case Stdin =>
    }
    var n := StripCount(strip);
    ghost var start := fs.State();
    var i := 0;
    while i < |items|
      invariant 0 <= i <= |items|
      invariant RunEntries(fs.State(), output, n, filter, items[i..]) == RunEntries(start, output, n, filter, items)
    {
      assert items[i..][1..] == items[i + 1..];
      var o := ExtractEntry(fs, output, n, filter, items[i]);
      if o.Fail? {
        return o;
      }
      i := i + 1;
    }
    r := Pass;
  }

  /** The body of the entry loop: `continue` for a skipped entry, `?` on a
      failing directory creation or unpack. */
  method ExtractEntry(fs: FileSystem, output: Path, n: nat, filter: Option<string>, item: Item)
    returns (o: Outcome<Error>)
    modifies fs
    ensures (fs.State(), o) == Step(old(fs.State()), output, n, filter, item)
  {
    match item {
      case Unreadable =>
        return Fail(EntryUnreadable);
      case Entry(path, kind) =>
        var kept := StrippedPath(path, n, filter);
        if kept.None? {
          return Pass;
        }
        var dest := Join(output, kept.value);
        var parent := Parent(dest);
        if parent.Some? {
          var ok := fs.CreateDirAll(parent.value);
          if !ok {
            return Fail(ParentDirFailed(parent.value));
          }
        }
        var ok := fs.Unpack(dest, kind);
        o := if ok then Pass else Fail(UnpackFailed(dest));
    }
  }
}

=== FILE: TarGzProperties.dfy ===
/** What `decompress_tar_gz` guarantees, proved about the reference semantics
    in module TarGz (and so, through its postcondition, about the method
    `DecompressTarGz`). */
module TarGzProperties {
  import opened Wrappers
  import opened Paths
  import opened PathLemmas
  import opened Filesystem
  import opened TarGz

  // ---------------------------------------------------------------------------
  // The per-entry decision

  /** The decision as plain sequence arithmetic on components: skip when
      there are no more than `n`, else keep the suffix after the first `n`
      when it passes the filter. */
  function KeptPath(cs: Path, n: nat, filter: Option<Path>): Option<Path> {
    if |cs| <= n then None
    else if filter.Some? && !StartsWith(cs[n..], filter.value) then None
    else Some(cs[n..])
  }

  function FilterComponents(filter: Option<string>): Option<Path> {
    match filter
    case None => None
    case Some(f) => Some(Components(f))
  }

  /** Rebuilding a `PathBuf` from the kept components and reading its
      components back (for the emptiness test and for `starts_with`) changes
      nothing: the decision is exactly the sequence arithmetic. */
  lemma StrippedPathIsSliceArithmetic(path: string, n: nat, filter: Option<string>)
    ensures StrippedPath(path, n, filter) == KeptPath(Components(path), n, FilterComponents(filter))
  {
    var cs := Components(path);
    ComponentsWellFormed(path);
    if |cs| > n {
      SuffixWellFormed(cs, n);
      RenderEmptyIff(cs[n..]);
      ComponentsOfRender(cs[n..]);
      if filter.Some? {
        IterAfterIsPrefix(cs[n..], Components(filter.value));
      }
    }
  }

  /** An entry is skipped when it has no more components than the strip
      count, and without a filter only then; a kept entry's path is its
      component sequence with exactly the first `n` removed, in order. */
  lemma StripCharacterised(path: string, n: nat, filter: Option<string>)
    ensures |Components(path)| <= n ==> StrippedPath(path, n, filter).None?
    ensures StrippedPath(path, n, None).Some? <==> |Components(path)| > n
    ensures StrippedPath(path, n, filter).Some? ==>
              var cs, q := Components(path), StrippedPath(path, n, filter).value;
              |cs| > n && |q| == |cs| - n && forall i :: 0 <= i < |q| ==> q[i] == cs[n + i]
  {
    StrippedPathIsSliceArithmetic(path, n, filter);
    StrippedPathIsSliceArithmetic(path, n, None);
  }

  /** Without a filter, an entry with components `cs`, more than `n` of
      them, is kept with the first `n` dropped. */
  lemma KeptWithoutFilter(path: string, n: nat, cs: Path)
    requires Components(path) == cs && |cs| > n
    ensures StrippedPath(path, n, None) == Some(cs[n..])
  {
    StrippedPathIsSliceArithmetic(path, n, None);
  }

  /** With filter `f`, whose components are `fcs`, the entry is kept exactly
      when its stripped components start with `fcs`. */
  lemma KeptUnderFilter(path: string, n: nat, cs: Path, f: string, fcs: Path)
    requires Components(path) == cs && Components(f) == fcs
    ensures StrippedPath(path, n, Some(f)) == if |cs| > n && StartsWith(cs[n..], fcs) then Some(cs[n..]) else None
  {
    StrippedPathIsSliceArithmetic(path, n, Some(f));
  }

  /** The "skip if the resulting path is empty" test never fires: once the
      length test is passed, the rebuilt path is non-empty. */
  lemma EmptyPathSkipNeverFires(path: string, n: nat)
    ensures |Components(path)| > n ==> Render(Components(path)[n..]) != ""
  {
    var cs := Components(path);
    ComponentsWellFormed(path);
    if |cs| > n {
      SuffixWellFormed(cs, n);
      RenderEmptyIff(cs[n..]);
    }
  }

  /** With a filter, an entry is kept exactly when the filter's components
      are a prefix of (or equal to) its stripped components. */
  lemma FilterIsComponentPrefix(path: string, n: nat, f: string)
    ensures StrippedPath(path, n, Some(f)).Some? <==>
              |Components(path)| > n && StartsWith(Components(path)[n..], Components(f))
  {
    StrippedPathIsSliceArithmetic(path, n, Some(f));
  }

  /** The filter compares whole components, not characters: `ab/x` is not
      under filter `a`. */
  lemma FilterComparesWholeComponents(path: string, f: string)
    requires path == "ab/x" && f == "a"
    ensures StrippedPath(path, 0, Some(f)) == None
  {
    var cs, fcs := [Normal("ab"), Normal("x")], [Normal("a")];
    ComponentsOfPair(path, "ab", "x");
    ComponentsOfName(f);
    assert |cs[0].name| != |fcs[0].name|;
    assert cs[0..][..1] != fcs;
    KeptUnderFilter(path, 0, cs, f, fcs);
  }

  /** The filter path itself is kept, and so is everything below it. */
  lemma FilterKeepsItselfAndBelow(f: string, below: string)
    requires f == "a" && below == "a/x"
    ensures StrippedPath(f, 0, Some(f)) == Some([Normal("a")])
    ensures StrippedPath(below, 0, Some(f)) == Some([Normal("a"), Normal("x")])
  {
    var a, ax := [Normal("a")], [Normal("a"), Normal("x")];
    ComponentsOfName(f);
    ComponentsOfPair(below, "a", "x");
    assert a[0..] == a && ax[0..] == ax && ax[..1] == a;
    KeptUnderFilter(f, 0, a, f, a);
    KeptUnderFilter(below, 0, ax, f, a);
  }

  // ---------------------------------------------------------------------------
  // Destinations

  /** A kept entry whose stripped path is made of names only is written at
      a path lexically under the output directory. Only lexically: nothing
      in the source checks where the path leads, so a symbolic link unpacked
      earlier can take it elsewhere; see also the two lemmas after this one. */
  lemma DestinationUnderOutput(output: Path, path: string, kind: EntryKind, n: nat, f: Option<string>)
    requires |Components(path)| > n && AllNormal(Components(path)[n..])
    requires Destination(output, Entry(path, kind), n, f).Some?
    ensures Destination(output, Entry(path, kind), n, f).value == output + Components(path)[n..]
    ensures StartsWith(Destination(output, Entry(path, kind), n, f).value, output)
  {
    StrippedPathIsSliceArithmetic(path, n, f);
    JoinNamesStaysUnder(output, Components(path)[n..]);
  }

  /** An absolute entry path with no stripping is written where it says,
      whatever the output directory. */
  lemma AbsoluteEntryLeavesOutput(output: Path, path: string)
    requires path == "/etc/passwd"
    ensures Destination(output, Entry(path, File), 0, None)
            == Some([RootDir, Normal("etc"), Normal("passwd")])
  {
    var cs := [RootDir, Normal("etc"), Normal("passwd")];
    ComponentsOfEtcPasswd(path);
    assert cs[0..] == cs;
    KeptWithoutFilter(path, 0, cs);
  }

  /** A `..` component is kept and appended below the output directory,
      from where it climbs out of it. */
  lemma ParentEntryClimbs(output: Path, path: string)
    requires path == "../evil"
    ensures Destination(output, Entry(path, File), 0, None)
            == Some(output + [ParentDir, Normal("evil")])
  {
    var cs := [ParentDir, Normal("evil")];
    ComponentsOfEvil(path);
    assert cs[0..] == cs;
    KeptWithoutFilter(path, 0, cs);
  }

  /** A leading `./` counts as a component: with one component stripped,
      `./pkg/bin/tool` keeps its `pkg`. */
  lemma DotPrefixCountsAsComponent(output: Path, path: string)
    requires path == "./pkg/bin/tool"
    ensures Destination(output, Entry(path, File), 1, None)
            == Some(output + [Normal("pkg"), Normal("bin"), Normal("tool")])
  {
    var cs := [CurDir, Normal("pkg"), Normal("bin"), Normal("tool")];
    ComponentsOfDotTool(path);
    assert cs[1..] == [Normal("pkg"), Normal("bin"), Normal("tool")];
    KeptWithoutFilter(path, 1, cs);
  }

  // ---------------------------------------------------------------------------
  // The plan of destinations

  lemma AppendAssociative(a: seq<Path>, b: seq<Path>, c: seq<Path>)
    ensures (a + b) + c == a + (b + c)
  {
  }

  /** The plan of a concatenation is the concatenation of the plans. */
  lemma {:induction false} PlanAppend(output: Path, a: seq<Item>, b: seq<Item>, n: nat, f: Option<string>)
    ensures Plan(output, a + b, n, f) == Plan(output, a, n, f) + Plan(output, b, n, f)
    decreases |a|
  {
    if a != [] {
      assert (a + b)[0] == a[0];
      assert (a + b)[1..] == a[1..] + b;
      PlanAppend(output, a[1..], b, n, f);
      var w := Written(output, a[0], n, f);
      AppendAssociative(w, Plan(output, a[1..], n, f), Plan(output, b, n, f));
    } else {
      assert a + b == b;
    }
  }

  /** The plan holds exactly the destinations of the archive's kept entries. */
  lemma {:induction false} PlanMembers(output: Path, items: seq<Item>, n: nat, f: Option<string>, p: Path)
    ensures p in Plan(output, items, n, f) <==>
              exists j :: 0 <= j < |items| && Destination(output, items[j], n, f) == Some(p)
    decreases |items|
  {
    if items != [] {
      PlanMembers(output, items[1..], n, f, p);
      if exists j :: 0 <= j < |items[1..]| && Destination(output, items[1..][j], n, f) == Some(p) {
        var j :| 0 <= j < |items[1..]| && Destination(output, items[1..][j], n, f) == Some(p);
        assert Destination(output, items[j + 1], n, f) == Some(p);
      }
      if exists j :: 0 <= j < |items| && Destination(output, items[j], n, f) == Some(p) {
        var j :| 0 <= j < |items| && Destination(output, items[j], n, f) == Some(p);
        if j > 0 {
          assert items[1..][j - 1] == items[j];
        }
      }
    }
  }

  // ---------------------------------------------------------------------------
  // One iteration

  /** What one iteration changes: nothing is removed, and the destination
      is logged exactly when the iteration passes. */
  lemma StepEffect(d: Disk, output: Path, n: nat, f: Option<string>, item: Item)
    ensures var (d', o) := Step(d, output, n, f, item);
              && d.dirs <= d'.dirs && d.files <= d'.files && d'.faulty == d.faulty
              && (o.Fail? ==> d'.written == d.written)
              && (o.Pass? ==> d'.written == d.written + Written(output, item, n, f))
  {
    match Destination(output, item, n, f) {
      case None =>
      case Some(dest) =>
        match Parent(dest) {
          case None =>
          case Some(dir) =>
            var (d1, ok) := CreateDirAllOn(d, dir);
            if ok {
              var (d2, ok2) := UnpackOn(d1, dest, item.kind);
            }
        }
    }
  }

  /** An entry that is skipped (too few components, or outside the filter)
      is passed over before any directory is created or anything written;
      an unreadable one stops the loop with the filesystem untouched. */
  lemma SkippedStepChangesNothing(d: Disk, output: Path, n: nat, f: Option<string>, item: Item)
    requires Destination(output, item, n, f).None?
    ensures Step(d, output, n, f, item) == (d, if item.Entry? then Pass else Fail(EntryUnreadable))
  {
  }

  /** A kept entry adds no directory but ancestors of its destination and the
      destination itself, and no file but the destination. */
  lemma KeptStepAddsOnlyDestination(d: Disk, output: Path, n: nat, f: Option<string>, item: Item, dest: Path)
    requires Destination(output, item, n, f) == Some(dest)
    ensures var d' := Step(d, output, n, f, item).0;
              d'.dirs <= d.dirs + Prefixes(dest, |dest|) && d'.files <= d.files + {dest}
  {
    assert Step(d, output, n, f, item) == Place(d, dest, item.kind);
    PlaceAddsOnlyDestination(d, dest, item.kind);
    assert dest in Prefixes(dest, |dest|) by {
      StrippedPathIsSliceArithmetic(item.path, n, f);
      assert dest != [];
      assert dest[..|dest|] == dest;
    }
  }

  /** Creating the parent chain and unpacking adds no directory but the
      destination and its ancestors, and no file but the destination. */
  lemma PlaceAddsOnlyDestination(d: Disk, dest: Path, kind: EntryKind)
    ensures var d' := Place(d, dest, kind).0;
              d'.dirs <= d.dirs + Prefixes(dest, |dest|) + {dest} && d'.files <= d.files + {dest}
  {
    var all := Prefixes(dest, |dest|);
    match Parent(dest) {
      case None =>
      case Some(dir) =>
        var (d1, ok) := CreateDirAllOn(d, dir);
        assert d1.dirs <= d.dirs + all && d1.files == d.files by {
          assert dir == dest[..|dest| - 1];
          ParentPrefixes(dest);
        }
    }
  }

  /** Creating the parent chain and unpacking add, as directories, only
      ancestors of the destination and, for a directory entry, the
      destination itself; a directory entry adds no file. */
  lemma PlaceAddsAncestors(d: Disk, dest: Path, kind: EntryKind)
    ensures var d' := Place(d, dest, kind).0;
              && (forall q :: q in d'.dirs ==> q in d.dirs || Above(q, dest) || (kind == Directory && q == dest))
              && (kind == Directory ==> d'.files == d.files)
              && (kind != Directory ==> d'.files <= d.files + {dest})
  {
    match Parent(dest) {
      case None =>
      case Some(dir) =>
        ParentChainIsAbove(d, dest, dir);
    }
  }

  /** The directories `create_dir_all` adds for the parent are ancestors of
      the destination. */
  lemma ParentChainIsAbove(d: Disk, dest: Path, dir: Path)
    requires Parent(dest) == Some(dir)
    ensures forall q :: q in CreateDirAllOn(d, dir).0.dirs ==> q in d.dirs || Above(q, dest)
  {
    ParentPrefixesAbove(dest, dir);
  }

  /** Every non-empty prefix of the parent is an ancestor of the path. */
  lemma ParentPrefixesAbove(dest: Path, dir: Path)
    requires Parent(dest) == Some(dir)
    ensures forall q :: q in Prefixes(dir, |dir|) ==> Above(q, dest)
  {
    forall q | q in Prefixes(dir, |dir|) ensures Above(q, dest) {
      var j :| 1 <= j <= |dir| && q == dir[..j];
      assert dir[..j] == dest[..j];
    }
  }

  /** A kept entry passes exactly when its destination is not faulty, no
      directory on its parent chain is blocked, and nothing of the other
      kind is at the destination. It never fails for want of its parent:
      the chain is created before the unpack, which needs it. */
  lemma KeptStepSucceedsIff(d: Disk, output: Path, n: nat, f: Option<string>, path: string, kind: EntryKind, dest: Path)
    requires Destination(output, Entry(path, kind), n, f) == Some(dest)
    ensures Step(d, output, n, f, Entry(path, kind)).1.Pass? <==>
              && dest !in d.faulty
              && (Parent(dest).Some? ==>
                    forall j :: 1 <= j <= |Parent(dest).value| ==> !Blocked(d, Parent(dest).value[..j]))
              && !Clash(d, dest, kind)
  {
    assert Step(d, output, n, f, Entry(path, kind)) == Place(d, dest, kind);
    PlaceSucceedsIff(d, dest, kind);
  }

  /** Creating the parent chain and unpacking pass exactly when the
      destination is not faulty, no directory on the chain is blocked, and
      nothing of the other kind is at the destination. */
  lemma PlaceSucceedsIff(d: Disk, dest: Path, kind: EntryKind)
    ensures Place(d, dest, kind).1.Pass? <==>
              && dest !in d.faulty
              && (Parent(dest).Some? ==>
                    forall j :: 1 <= j <= |Parent(dest).value| ==> !Blocked(d, Parent(dest).value[..j]))
              && !Clash(d, dest, kind)
  {
    match Parent(dest)
    case None =>
    case Some(dir) =>
      var (d', ok) := CreateDirAllOn(d, dir);
      if ok && dir != [] {
        assert dir[..|dir|] == dir;
        assert ParentReady(d', dest);
      }
  }

  /** Every unpacked destination, looked at after the step, exists and has
      its parent directory in place. */
  lemma StepWritesHaveParents(d: Disk, output: Path, n: nat, f: Option<string>, item: Item)
    ensures var d' := Step(d, output, n, f, item).0;
              forall i :: |d.written| <= i < |d'.written| ==> Exists(d', d'.written[i]) && ParentReady(d', d'.written[i])
  {
    match Destination(output, item, n, f) {
      case None =>
      case Some(dest) =>
        assert Step(d, output, n, f, item) == Place(d, dest, item.kind);
        PlaceWriteHasParent(d, dest, item.kind);
    }
  }

  /** The destination `Place` unpacks exists afterwards, in its parent. */
  lemma PlaceWriteHasParent(d: Disk, dest: Path, kind: EntryKind)
    ensures var d' := Place(d, dest, kind).0;
              forall i :: |d.written| <= i < |d'.written| ==> Exists(d', d'.written[i]) && ParentReady(d', d'.written[i])
  {
    match Parent(dest) {
      case None =>
        var (d1, ok) := UnpackOn(d, dest, kind);
        if ok { assert d1.written[|d.written|] == dest; }
      case Some(dir) =>
        var (d1, ok) := CreateDirAllOn(d, dir);
        if ok {
          var (d2, ok2) := UnpackOn(d1, dest, kind);
          if ok2 { assert d2.written[|d.written|] == dest && d2.dirs == d1.dirs + (if kind == Directory then {dest} else {}); }
        }
    }
  }

  // ---------------------------------------------------------------------------
  // The entry loop

  /** Entries are handled in archive order: running over `a + b` is running
      over `a` and, only if that succeeded, over `b` from where it left off. */
  lemma {:induction false} RunSplit(d: Disk, output: Path, n: nat, f: Option<string>, a: seq<Item>, b: seq<Item>)
    ensures RunEntries(d, output, n, f, a + b) ==
              var (d', o) := RunEntries(d, output, n, f, a);
              if o.Fail? then (d', o) else RunEntries(d', output, n, f, b)
    decreases |a|
  {
    if a != [] {
      assert (a + b)[0] == a[0];
      assert (a + b)[1..] == a[1..] + b;
      var (d1, o1) := Step(d, output, n, f, a[0]);
      if o1.Pass? {
        RunSplit(d1, output, n, f, a[1..], b);
      }
    } else {
      assert a + b == b;
    }
  }

  /** The run only adds: directories and files stay, the log only grows. */
  lemma {:induction false} RunOnlyAdds(d: Disk, output: Path, n: nat, f: Option<string>, items: seq<Item>)
    ensures var d' := RunEntries(d, output, n, f, items).0;
              d.dirs <= d'.dirs && d.files <= d'.files && d'.faulty == d.faulty && d.written <= d'.written
    decreases |items|
  {
    if items != [] {
      StepEffect(d, output, n, f, items[0]);
      var (d1, o1) := Step(d, output, n, f, items[0]);
      if o1.Pass? {
        RunOnlyAdds(d1, output, n, f, items[1..]);
      }
    }
  }

  /** A successful run writes exactly the plan, in order. */
  lemma {:induction false} RunPassWritesPlan(d: Disk, output: Path, n: nat, f: Option<string>, items: seq<Item>)
    ensures var (d', o) := RunEntries(d, output, n, f, items);
              o.Pass? ==> d'.written == d.written + Plan(output, items, n, f)
    decreases |items|
  {
    if items == [] {
      assert d.written + [] == d.written;
    } else {
      StepEffect(d, output, n, f, items[0]);
      var (d1, o1) := Step(d, output, n, f, items[0]);
      if o1.Pass? {
        RunPassWritesPlan(d1, output, n, f, items[1..]);
        var w, rest := Written(output, items[0], n, f), Plan(output, items[1..], n, f);
        AppendAssociative(d.written, w, rest);
      }
    }
  }

  /** The plan of the first `k + 1` entries, taken apart at its first entry. */
  lemma PlanOfPrefix(output: Path, items: seq<Item>, k: nat, n: nat, f: Option<string>)
    requires k < |items|
    ensures Plan(output, items[..k + 1], n, f) == Written(output, items[0], n, f) + Plan(output, items[1..][..k], n, f)
  {
    assert items[..k + 1][0] == items[0];
    assert items[..k + 1][1..] == items[1..][..k];
  }

  /** How many entries the run gets through: the index of the entry whose
      step fails, or all of them when none does. */
  function Handled(d: Disk, output: Path, n: nat, f: Option<string>, items: seq<Item>): (k: nat)
    ensures k <= |items|
    decreases |items|
  {
    if items == [] then 0
    else
      var (d1, o1) := Step(d, output, n, f, items[0]);
      if o1.Fail? then 0 else 1 + Handled(d1, output, n, f, items[1..])
  }

  /** The run fails exactly when it stops short of the end, and whatever
      happens, what it wrote is the plan of the entries it got through: a
      failure keeps the writes before it and adds none of its own. */
  lemma {:induction false} RunWritesPlanPrefix(d: Disk, output: Path, n: nat, f: Option<string>, items: seq<Item>)
    ensures var (d', o) := RunEntries(d, output, n, f, items);
            var k := Handled(d, output, n, f, items);
              && (o.Pass? <==> k == |items|)
              && d'.written == d.written + Plan(output, items[..k], n, f)
    decreases |items|
  {
    if items == [] {
      assert items[..0] == [];
    } else {
      StepEffect(d, output, n, f, items[0]);
      var (d1, o1) := Step(d, output, n, f, items[0]);
      if o1.Fail? {
        assert items[..0] == [];
      } else {
        RunWritesPlanPrefix(d1, output, n, f, items[1..]);
        var k := Handled(d1, output, n, f, items[1..]);
        PlanOfPrefix(output, items, k, n, f);
        var w, rest := Written(output, items[0], n, f), Plan(output, items[1..][..k], n, f);
        AppendAssociative(d.written, w, rest);
      }
    }
  }

  /** Whatever happens, the run writes a leading part of the plan. */
  lemma {:induction false} RunWritesWithinPlan(d: Disk, output: Path, n: nat, f: Option<string>, items: seq<Item>)
    ensures var d' := RunEntries(d, output, n, f, items).0;
              d.written <= d'.written <= d.written + Plan(output, items, n, f)
    decreases |items|
  {
    if items == [] {
      assert d.written + [] == d.written;
    } else {
      StepEffect(d, output, n, f, items[0]);
      var (d1, o1) := Step(d, output, n, f, items[0]);
      var w, rest := Written(output, items[0], n, f), Plan(output, items[1..], n, f);
      if o1.Pass? {
        RunWritesWithinPlan(d1, output, n, f, items[1..]);
        AppendAssociative(d.written, w, rest);
        PrefixOfAppend(d.written, w);
      } else {
        PrefixWithin(d.written, w, rest);
      }
    }
  }

  lemma PrefixWithin(a: seq<Path>, b: seq<Path>, c: seq<Path>)
    ensures a <= a + b <= a + (b + c)
  {
    AppendAssociative(a, b, c);
    PrefixOfAppend(a, b);
    PrefixOfAppend(a + b, c);
  }

  lemma PrefixOfAppend(a: seq<Path>, b: seq<Path>)
    ensures a <= a + b
  {
  }

  /** After the run, every destination it unpacked exists and has its parent
      directory. */
  lemma {:induction false} RunWritesHaveParents(d: Disk, output: Path, n: nat, f: Option<string>, items: seq<Item>)
    ensures var d' := RunEntries(d, output, n, f, items).0;
              forall i :: |d.written| <= i < |d'.written| ==> Exists(d', d'.written[i]) && ParentReady(d', d'.written[i])
    decreases |items|
  {
    if items != [] {
      StepEffect(d, output, n, f, items[0]);
      StepWritesHaveParents(d, output, n, f, items[0]);
      var (d1, o1) := Step(d, output, n, f, items[0]);
      if o1.Pass? {
        RunWritesHaveParents(d1, output, n, f, items[1..]);
        RunOnlyAdds(d1, output, n, f, items[1..]);
        var d' := RunEntries(d1, output, n, f, items[1..]).0;
        forall i | |d.written| <= i < |d'.written| ensures Exists(d', d'.written[i]) && ParentReady(d', d'.written[i]) {
          if i < |d1.written| {
            assert d'.written[i] == d1.written[i];
            assert Exists(d1, d1.written[i]) && ParentReady(d1, d1.written[i]);
          }
        }
      }
    }
  }

  /** No step makes a path both a directory and a file. */
  lemma StepKeepsDisjoint(d: Disk, output: Path, n: nat, f: Option<string>, item: Item)
    requires Disjoint(d)
    ensures Disjoint(Step(d, output, n, f, item).0)
  {
    match Destination(output, item, n, f) {
      case None =>
      case Some(dest) =>
        match Parent(dest) {
          case None =>
          case Some(dir) =>
            var (d1, ok) := CreateDirAllOn(d, dir);
            assert Disjoint(d1);
        }
    }
  }

  /** The run never makes a path both a directory and a file. */
  lemma {:induction false} RunKeepsDisjoint(d: Disk, output: Path, n: nat, f: Option<string>, items: seq<Item>)
    requires Disjoint(d)
    ensures Disjoint(RunEntries(d, output, n, f, items).0)
    decreases |items|
  {
    if items != [] {
      StepKeepsDisjoint(d, output, n, f, items[0]);
      var (d1, o1) := Step(d, output, n, f, items[0]);
      if o1.Pass? {
        RunKeepsDisjoint(d1, output, n, f, items[1..]);
      }
    }
  }

  /** The destination of `item` when it is kept and unpacks into a directory
      (`dir`), or into a file or link (`!dir`). */
  function KeptAs(output: Path, item: Item, n: nat, f: Option<string>, dir: bool): set<Path> {
    if item.Entry? && Destination(output, item, n, f).Some? && (item.kind == Directory) == dir
    then {Destination(output, item, n, f).value}
    else {}
  }

  /** The destinations of all of `items` kept that way. */
  function AllKeptAs(output: Path, items: seq<Item>, n: nat, f: Option<string>, dir: bool): set<Path>
    decreases |items|
  {
    if items == [] then {}
    else KeptAs(output, items[0], n, f, dir) + AllKeptAs(output, items[1..], n, f, dir)
  }

  /** No entry meets a path of the other kind: no file, existing or to be
      unpacked, is an ancestor of a destination or where a directory entry
      goes, and no file or link entry goes where a directory exists. */
  predicate ClashFree(d: Disk, nonDirs: set<Path>, dirs: set<Path>) {
    && (forall x, y :: x in d.files + nonDirs && y in nonDirs + dirs ==> !Above(x, y))
    && (d.files + nonDirs) !! dirs
    && nonDirs !! d.dirs
  }

  /** On a fault-free disk, a readable entry whose destination meets no path
      of the other kind passes, and leaves the rest of the run clash-free. */
  lemma StepKeepsClashFree(d: Disk, output: Path, n: nat, f: Option<string>, item: Item, nonDirs: set<Path>, dirs: set<Path>)
    requires d.faulty == {} && item.Entry?
    requires ClashFree(d, KeptAs(output, item, n, f, false) + nonDirs, KeptAs(output, item, n, f, true) + dirs)
    ensures var (d', o) := Step(d, output, n, f, item);
              o == Pass && d'.faulty == {} && ClashFree(d', nonDirs, dirs)
  {
    match Destination(output, item, n, f) {
      case None =>
      case Some(dest) =>
        assert Step(d, output, n, f, item) == Place(d, dest, item.kind);
        PlaceKeepsClashFree(d, dest, item.kind, nonDirs, dirs);
    }
  }

  /** Creating the parent chain of a destination that meets no path of the
      other kind, then unpacking it, passes on a fault-free disk and keeps
      the rest clash-free. */
  lemma PlaceKeepsClashFree(d: Disk, dest: Path, kind: EntryKind, nonDirs: set<Path>, dirs: set<Path>)
    requires d.faulty == {}
    requires ClashFree(d, (if kind == Directory then {} else {dest}) + nonDirs,
                          (if kind == Directory then {dest} else {}) + dirs)
    ensures var (d', o) := Place(d, dest, kind);
              o == Pass && d'.faulty == {} && ClashFree(d', nonDirs, dirs)
  {
    var allNonDirs := (if kind == Directory then {} else {dest}) + nonDirs;
    var allDirs := (if kind == Directory then {dest} else {}) + dirs;
    assert dest in allNonDirs + allDirs;
    assert Place(d, dest, kind).1 == Pass by {
      assert Parent(dest).Some? ==>
               forall j :: 1 <= j <= |Parent(dest).value| ==> !Blocked(d, Parent(dest).value[..j]) by {
        if Parent(dest).Some? {
          var dir := Parent(dest).value;
          forall j | 1 <= j <= |dir| ensures !Blocked(d, dir[..j]) {
            assert dir[..j] == dest[..j];
            assert Above(dest[..j], dest);
          }
        }
      }
      PlaceSucceedsIff(d, dest, kind);
    }
    PlaceAddsAncestors(d, dest, kind);
  }

  /** With no faulty path, no unreadable entry and no entry meeting a path
      of the other kind, the run succeeds. */
  lemma {:induction false} RunNoFaults(d: Disk, output: Path, n: nat, f: Option<string>, items: seq<Item>)
    requires d.faulty == {}
    requires forall j :: 0 <= j < |items| ==> items[j].Entry?
    requires ClashFree(d, AllKeptAs(output, items, n, f, false), AllKeptAs(output, items, n, f, true))
    ensures RunEntries(d, output, n, f, items).1 == Pass
    decreases |items|
  {
    if items != [] {
      var item := items[0];
      var rest := items[1..];
      StepKeepsClashFree(d, output, n, f, item, AllKeptAs(output, rest, n, f, false), AllKeptAs(output, rest, n, f, true));
      assert forall j :: 0 <= j < |rest| ==> rest[j] == items[j + 1];
      RunNoFaults(Step(d, output, n, f, item).0, output, n, f, rest);
    }
  }

  // ---------------------------------------------------------------------------
  // The whole call

  /** `strip_components` left out behaves exactly like 0. */
  lemma AbsentStripIsZero(d: Disk, target: InputTarget, output: Path, f: Option<string>, items: seq<Item>)
    ensures Decompress(d, target, output, None, f, items) == Decompress(d, target, output, Some(0), f, items)
  {
  }

  /** The output directory is created before the input is opened, and a
      named archive that does not exist fails before any entry is looked at. */
  lemma MissingArchiveFailsFirst(d: Disk, file: Path, output: Path, strip: Option<nat>, f: Option<string>, items: seq<Item>)
    ensures var (d', r) := Decompress(d, Named(file), output, strip, f, items);
            var (d1, ok) := CreateDirAllOn(d, output);
              && (r == Fail(ArchiveMissing(file)) <==> ok && !Exists(d1, file))
              && (r == Fail(ArchiveMissing(file)) ==>
                    d' == d1 && d'.written == d.written && (output != [] ==> output in d'.dirs))
  {
    var (d1, ok) := CreateDirAllOn(d, output);
    if ok && output != [] {
      assert output[..|output|] == output;
    }
    var r := Decompress(d, Named(file), output, strip, f, items).1;
    if ok && Exists(d1, file) && file !in d1.faulty {
      var n := StripCount(strip);
      RunPassWritesPlan(d1, output, n, f, items);
      if RunEntries(d1, output, n, f, items).1.Fail? {
        RunFailureIsAnEntryError(d1, output, n, f, items);
      }
    }
  }

  /** Every failure of the entry loop is an entry-level error. */
  lemma {:induction false} RunFailureIsAnEntryError(d: Disk, output: Path, n: nat, f: Option<string>, items: seq<Item>)
    ensures var o := RunEntries(d, output, n, f, items).1;
              o.Fail? ==> o.error.EntryUnreadable? || o.error.ParentDirFailed? || o.error.UnpackFailed?
    decreases |items|
  {
    if items != [] {
      var (d1, o1) := Step(d, output, n, f, items[0]);
      if o1.Pass? {
        RunFailureIsAnEntryError(d1, output, n, f, items[1..]);
      }
    }
  }

  /** What a call leaves behind: on success the output directory and the
      whole plan; on failure a leading part of the plan, nothing else. */
  lemma DecompressWrites(d: Disk, target: InputTarget, output: Path, strip: Option<nat>, f: Option<string>, items: seq<Item>)
    ensures var (d', r) := Decompress(d, target, output, strip, f, items);
            var n := StripCount(strip);
              && (r.Pass? ==> d'.written == d.written + Plan(output, items, n, f)
                                && (output != [] ==> output in d'.dirs))
              && (r.Fail? ==> d.written <= d'.written <= d.written + Plan(output, items, n, f))
  {
    var n := StripCount(strip);
    var (d1, ok) := CreateDirAllOn(d, output);
    if ok {
      if output != [] {
        assert output[..|output|] == output;
      }
      RunPassWritesPlan(d1, output, n, f, items);
      RunWritesWithinPlan(d1, output, n, f, items);
      RunOnlyAdds(d1, output, n, f, items);
    }
  }

  // ---------------------------------------------------------------------------
  // Entries that meet a path of the other kind

  /** `a`, `a/` and `a/b`, nothing stripped and no filter, land at
      `output/a`, `output/a` and `output/a/b`. */
  lemma NestedDestinations(output: Path, a: string, aDir: string, ab: string, kind: EntryKind)
    requires a == "a" && aDir == "a/" && ab == "a/b"
    ensures Destination(output, Entry(a, kind), 0, None) == Some(output + [Normal("a")])
    ensures Destination(output, Entry(aDir, kind), 0, None) == Some(output + [Normal("a")])
    ensures Destination(output, Entry(ab, kind), 0, None) == Some(output + [Normal("a"), Normal("b")])
  {
    var cs, cs2 := [Normal("a")], [Normal("a"), Normal("b")];
    assert cs[0..] == cs && cs2[0..] == cs2;
    assert Components(a) == cs by { ComponentsOfName(a); }
    assert Components(aDir) == cs by {
      assert aDir == a + "/";
      TrailingSeparatorIgnored(a);
    }
    assert Components(ab) == cs2 by { ComponentsOfPair(ab, "a", "b"); }
    KeptWithoutFilter(a, 0, cs);
    KeptWithoutFilter(aDir, 0, cs);
    KeptWithoutFilter(ab, 0, cs2);
  }

  /** A regular file entry followed by an entry below it fails, whatever
      the disk: if the first is unpacked, the file stands where the second
      needs a directory, and `create_dir_all` stops there. (A root
      component only ever leads a path, so `y` does not end in one.) A
      link entry is left out: the program follows a link to a directory. */
  lemma FileThenEntryBelowFails(d: Disk, output: Path, n: nat, f: Option<string>, first: Item, second: Item, x: Path, y: Path)
    requires first.Entry? && first.kind == File && Destination(output, first, n, f) == Some(x)
    requires second.Entry? && Destination(output, second, n, f) == Some(y) && Above(x, y)
    requires !y[|y| - 1].RootDir?
    ensures RunEntries(d, output, n, f, [first, second]).1.Fail?
  {
    assert [first, second][1..] == [second];
    var (d2, o) := Place(d, x, first.kind);
    assert Step(d, output, n, f, first) == (d2, o);
    if o.Pass? {
      PlacedFileStands(d, x, first.kind);
      assert Step(d2, output, n, f, second) == Place(d2, y, second.kind);
      FileAboveBlocks(d2, x, y, second.kind);
    }
  }

  /** A file or link that `Place` unpacked is a file, not a directory. */
  lemma PlacedFileStands(d: Disk, x: Path, kind: EntryKind)
    requires kind != Directory && Place(d, x, kind).1.Pass?
    ensures x in Place(d, x, kind).0.files && x !in Place(d, x, kind).0.dirs
  {
    var d2 := Place(d, x, kind).0;
    PlaceSucceedsIff(d, x, kind);
    PlaceAddsAncestors(d, x, kind);
    PlaceWriteHasParent(d, x, kind);
    assert d2.written == d.written + [x] by {
      match Parent(x) {
        case None =>
        case Some(dir) =>
      }
    }
    assert d2.written[|d.written|] == x;
  }

  /** A file that stands at an ancestor of the destination stops its parent
      chain. */
  lemma FileAboveBlocks(d: Disk, x: Path, y: Path, kind: EntryKind)
    requires x in d.files && x !in d.dirs && Above(x, y) && !y[|y| - 1].RootDir?
    ensures Place(d, y, kind).1.Fail?
  {
    var dir := y[..|y| - 1];
    assert Parent(y) == Some(dir);
    assert dir[..|x|] == x;
    PlaceSucceedsIff(d, y, kind);
  }

  /** A directory entry followed by a file or link entry at the same path
      fails, whatever the disk: the unpack does not replace the directory. */
  lemma DirectoryThenFileFails(d: Disk, output: Path, n: nat, f: Option<string>, first: Item, second: Item, x: Path)
    requires first.Entry? && first.kind == Directory && Destination(output, first, n, f) == Some(x)
    requires second.Entry? && second.kind != Directory && Destination(output, second, n, f) == Some(x)
    ensures RunEntries(d, output, n, f, [first, second]).1.Fail?
  {
    assert [first, second][1..] == [second];
    var (d2, o) := Place(d, x, Directory);
    assert Step(d, output, n, f, first) == (d2, o);
    if o.Pass? {
      assert x in d2.dirs by {
        PlaceSucceedsIff(d, x, Directory);
        PlaceAddsAncestors(d, x, Directory);
        PlaceWriteHasParent(d, x, Directory);
        StepEffect(d, output, n, f, first);
        assert d2.written[|d.written|] == x;
      }
      assert Step(d2, output, n, f, second) == Place(d2, x, second.kind);
      PlaceSucceedsIff(d2, x, second.kind);
    }
  }

  /** The archive `a`, `a/b` (two files) fails on every disk, and so does
      `a/` (a directory) followed by the file `a`. */
  lemma ExampleKindConflicts(d: Disk, output: Path, a: string, aDir: string, ab: string)
    requires a == "a" && aDir == "a/" && ab == "a/b"
    ensures RunEntries(d, output, 0, None, [Entry(a, File), Entry(ab, File)]).1.Fail?
    ensures RunEntries(d, output, 0, None, [Entry(aDir, Directory), Entry(a, File)]).1.Fail?
  {
    var x, y := output + [Normal("a")], output + [Normal("a"), Normal("b")];
    NestedDestinations(output, a, aDir, ab, File);
    NestedDestinations(output, a, aDir, ab, Directory);
    assert y[..|x|] == x;
    FileThenEntryBelowFails(d, output, 0, None, Entry(a, File), Entry(ab, File), x, y);
    DirectoryThenFileFails(d, output, 0, None, Entry(aDir, Directory), Entry(a, File), x);
  }

  // ---------------------------------------------------------------------------
  // The worked example: pkg/bin/tool, pkg/README and pkg/

  function ExampleArchive(): seq<Item> {
    [Entry("pkg/bin/tool", File), Entry("pkg/README", File), Entry("pkg/", Directory)]
  }

  /** With one component stripped, `pkg/bin/tool` is written at
      `output/bin/tool`, with or without filter `bin`. */
  lemma ExampleToolDestination(output: Path, path: string, f: Option<string>)
    requires path == "pkg/bin/tool"
    requires f == None || f == Some("bin")
    ensures Destination(output, Entry(path, File), 1, f) == Some(output + [Normal("bin"), Normal("tool")])
  {
    var cs, rel := [Normal("pkg"), Normal("bin"), Normal("tool")], [Normal("bin"), Normal("tool")];
    ComponentsOfTool(path);
    assert cs[1..] == rel;
    if f == None {
      KeptWithoutFilter(path, 1, cs);
    } else {
      ComponentsOfName("bin");
      assert rel[..1] == [Normal("bin")];
      KeptUnderFilter(path, 1, cs, "bin", [Normal("bin")]);
    }
  }

  /** `pkg/README` goes to `output/README`, unless the filter is `bin`. */
  lemma ExampleReadmeDestination(output: Path, path: string)
    requires path == "pkg/README"
    ensures Destination(output, Entry(path, File), 1, None) == Some(output + [Normal("README")])
    ensures Destination(output, Entry(path, File), 1, Some("bin")) == None
  {
    assert Components(path) == [Normal("pkg"), Normal("README")] by {
      ComponentsOfPair(path, "pkg", "README");
    }
    ReadmeKept(output, path, [Normal("pkg"), Normal("README")]);
    ReadmeFiltered(output, path, [Normal("pkg"), Normal("README")], "bin");
  }

  lemma ReadmeKept(output: Path, path: string, cs: Path)
    requires cs == [Normal("pkg"), Normal("README")] && Components(path) == cs
    ensures Destination(output, Entry(path, File), 1, None) == Some(output + [Normal("README")])
  {
    assert cs[1..] == [Normal("README")];
    KeptWithoutFilter(path, 1, cs);
  }

  lemma ReadmeFiltered(output: Path, path: string, cs: Path, f: string)
    requires cs == [Normal("pkg"), Normal("README")] && Components(path) == cs && f == "bin"
    ensures Destination(output, Entry(path, File), 1, Some(f)) == None
  {
    assert Components(f) == [Normal(f)] by { ComponentsOfName(f); }
    assert |cs[1..][0].name| != |f|;
    assert cs[1..][..1] != [Normal(f)];
    KeptUnderFilter(path, 1, cs, f, [Normal(f)]);
  }

  /** `pkg/` has a single component, so stripping one skips it. */
  lemma ExampleDirectorySkipped(output: Path, path: string, f: Option<string>)
    requires path == "pkg/"
    ensures Destination(output, Entry(path, Directory), 1, f) == None
  {
    ComponentsOfPkgDir(path);
    StripCharacterised(path, 1, f);
  }

  lemma PlanOfThree(output: Path, a: Item, b: Item, c: Item, n: nat, f: Option<string>)
    ensures Plan(output, [a, b, c], n, f)
            == Written(output, a, n, f) + Written(output, b, n, f) + Written(output, c, n, f)
  {
    var wa, wb, wc := Written(output, a, n, f), Written(output, b, n, f), Written(output, c, n, f);
    assert [c][1..] == [];
    assert Plan(output, [c], n, f) == wc + [] == wc;
    assert [b, c][1..] == [c];
    assert Plan(output, [b, c], n, f) == wb + wc;
    assert [a, b, c][1..] == [b, c];
    assert Plan(output, [a, b, c], n, f) == wa + (wb + wc);
    AppendAssociative(wa, wb, wc);
  }

  /** The plan of the example archive with one component stripped: the two
      files land at `output/bin/tool` and `output/README`, `pkg/` is skipped. */
  lemma ExamplePlan(output: Path, items: seq<Item>)
    requires items == ExampleArchive()
    ensures Plan(output, items, 1, None) == [output + [Normal("bin"), Normal("tool")], output + [Normal("README")]]
  {
    assert items == [items[0], items[1], items[2]];
    PlanOfThree(output, items[0], items[1], items[2], 1, None);
    ExampleToolDestination(output, items[0].path, None);
    ExampleReadmeDestination(output, items[1].path);
    ExampleDirectorySkipped(output, items[2].path, None);
  }

  /** With filter `bin` as well, only `output/bin/tool` is written. */
  lemma ExampleFilteredPlan(output: Path, items: seq<Item>)
    requires items == ExampleArchive()
    ensures Plan(output, items, 1, Some("bin")) == [output + [Normal("bin"), Normal("tool")]]
  {
    assert items == [items[0], items[1], items[2]];
    PlanOfThree(output, items[0], items[1], items[2], 1, Some("bin"));
    ExampleToolDestination(output, items[0].path, Some("bin"));
    ExampleReadmeDestination(output, items[1].path);
    ExampleDirectorySkipped(output, items[2].path, Some("bin"));
  }

  /** The example run on an empty, fault-free filesystem succeeds and
      writes those two destinations. */
  lemma ExampleRun(output: Path, items: seq<Item>)
    requires items == ExampleArchive()
    ensures var (d', r) := Decompress(Disk({}, {}, {}, []), Stdin, output, Some(1), None, items);
              r == Pass && d'.written == [output + [Normal("bin"), Normal("tool")], output + [Normal("README")]]
  {
    var d1 := CreateDirAllOn(Disk({}, {}, {}, []), output).0;
    ExampleKept(output, items);
    ExampleClashFree(output, d1);
    RunNoFaults(d1, output, 1, None, items);
    RunPassWritesPlan(d1, output, 1, None, items);
    ExamplePlan(output, items);
  }

  /** The example's two files meet nothing of the other kind once the
      output directory is created on an empty disk. */
  lemma ExampleClashFree(output: Path, d1: Disk)
    requires d1 == CreateDirAllOn(Disk({}, {}, {}, []), output).0
    ensures ClashFree(d1, {output + [Normal("bin"), Normal("tool")], output + [Normal("README")]}, {})
  {
    var tool, readme := output + [Normal("bin"), Normal("tool")], output + [Normal("README")];
    assert d1.files == {} && forall q :: q in d1.dirs ==> |q| <= |output| by {
      forall q | q in Prefixes(output, |output|) ensures |q| <= |output| {
        var j :| 1 <= j <= |output| && q == output[..j];
      }
    }
    assert !Above(readme, tool) by {
      assert |"bin"| != |"README"|;
      assert tool[..|readme|][|output|] == Normal("bin") != Normal("README") == readme[|output|];
    }
  }

  /** Of the example archive with one component stripped, the two files are
      kept as files and nothing as a directory. */
  lemma ExampleKept(output: Path, items: seq<Item>)
    requires items == ExampleArchive()
    ensures AllKeptAs(output, items, 1, None, false) == {output + [Normal("bin"), Normal("tool")], output + [Normal("README")]}
    ensures AllKeptAs(output, items, 1, None, true) == {}
  {
    assert items == [items[0], items[1], items[2]];
    KeptOfThree(output, items[0], items[1], items[2], 1, None, false);
    KeptOfThree(output, items[0], items[1], items[2], 1, None, true);
    ExampleToolDestination(output, items[0].path, None);
    ExampleReadmeDestination(output, items[1].path);
    ExampleDirectorySkipped(output, items[2].path, None);
  }

  lemma KeptOfThree(output: Path, a: Item, b: Item, c: Item, n: nat, f: Option<string>, dir: bool)
    ensures AllKeptAs(output, [a, b, c], n, f, dir)
            == KeptAs(output, a, n, f, dir) + KeptAs(output, b, n, f, dir) + KeptAs(output, c, n, f, dir)
  {
    var ka, kb, kc := KeptAs(output, a, n, f, dir), KeptAs(output, b, n, f, dir), KeptAs(output, c, n, f, dir);
    assert [c][1..] == [];
    assert AllKeptAs(output, [c], n, f, dir) == kc + {} == kc;
    assert [b, c][1..] == [c];
    assert AllKeptAs(output, [b, c], n, f, dir) == kb + kc;
    assert [a, b, c][1..] == [b, c];
    assert AllKeptAs(output, [a, b, c], n, f, dir) == ka + (kb + kc);
  }

  // ---------------------------------------------------------------------------
  // The components of the literal paths used above

  /** A single name is its own only component. */
  lemma ComponentsOfName(s: string)
    requires ValidName(s)
    ensures Components(s) == [Normal(s)]
  {
    assert Unsplit([s]) == s;
    ComponentsOfNames([s]);
  }

  /** `a/b` has the components `a` and `b`. */
  lemma ComponentsOfPair(s: string, a: string, b: string)
    requires ValidName(a) && ValidName(b) && s == a + "/" + b
    ensures Components(s) == [Normal(a), Normal(b)]
  {
    assert Unsplit([a, b]) == s;
    ComponentsOfNames([a, b]);
  }

  lemma ComponentsOfEtcPasswd(s: string)
    requires s == "/etc/passwd"
    ensures Components(s) == [RootDir, Normal("etc"), Normal("passwd")]
  {
    var segs := ["", "etc", "passwd"];
    assert Unsplit(segs) == s;
    SplitUnsplit(segs);
    assert segs[1..] == ["etc", "passwd"];
    ParseNames(["etc", "passwd"]);
  }

  lemma ComponentsOfEvil(s: string)
    requires s == "../evil"
    ensures Components(s) == [ParentDir, Normal("evil")]
  {
    var segs := ["..", "evil"];
    assert Unsplit(segs) == s;
    SplitUnsplit(segs);
    assert segs[1..] == ["evil"];
    ParseNames(["evil"]);
  }

  lemma ComponentsOfDotTool(s: string)
    requires s == "./pkg/bin/tool"
    ensures Components(s) == [CurDir, Normal("pkg"), Normal("bin"), Normal("tool")]
  {
    var names := ["pkg", "bin", "tool"];
    var segs := ["."] + names;
    assert segs == [".", "pkg", "bin", "tool"];
    assert Unsplit(segs) == s;
    ComponentsOfDotNames(names);
    var p := Normals(names);
    assert p == [Normal("pkg"), Normal("bin"), Normal("tool")];
    assert [CurDir] + p == [CurDir, Normal("pkg"), Normal("bin"), Normal("tool")];
  }

  lemma ComponentsOfTool(s: string)
    requires s == "pkg/bin/tool"
    ensures Components(s) == [Normal("pkg"), Normal("bin"), Normal("tool")]
  {
    assert Unsplit(["pkg", "bin", "tool"]) == s;
    ComponentsOfNames(["pkg", "bin", "tool"]);
  }

  lemma ComponentsOfPkgDir(s: string)
    requires s == "pkg/"
    ensures Components(s) == [Normal("pkg")]
  {
    var t := "pkg";
    assert s == t + "/";
    assert Unsplit([t]) == t;
    ComponentsOfNames([t]);
    TrailingSeparatorIgnored(t);
  }

}

=== FILE: Wrappers.dfy ===
/** Failure-carrying datatypes shared by the model: the counterparts of Rust's
    `Option`, `Result` and `anyhow::Result<()>`. */
module Wrappers {

  datatype Option<+T> = None | Some(value: T) {
    /** `Option::unwrap_or` */
    function UnwrapOr(default: T): T {
      match this
      case Some(v) => v
      case None => default
    }
  }

  datatype Result<+T, +E> = Ok(value: T) | Err(error: E)

  /** The outcome of an operation that returns `Result<(), E>`. */
  datatype Outcome<+E> = Pass | Fail(error: E)
}
